=== FILE: README.md ===
# RuStore documentation retrieval: a Dafny model

This project models the retrieval data path of a question-answering service over the RuStore
developer documentation. Each stage is a pure function over immutable datatypes, with its
properties proved:

- **Scraping.** The scraper walks the documentation site. For each page it records metadata and
  turns the top-level elements of the markdown area into a JSON item list (`Scraper`).
- **Normalisation.** A sequence of passes rewrites every page's item list:
  - finds the deepest header and copies the first `h1` text into the page metadata
    (`HeaderScan`);
  - writes the link URLs into the texts (`LinkMerge`);
  - merges consecutive paragraphs (`ParagraphMerge`);
  - folds list blocks into the preceding block (`ListFolding`).
- **Flattening.** Each page is flattened into one tagged string. Tables are rendered with aligned
  columns (`TableRender`, `Flatten`).
- **Chunking.** The flattened pages are read back and cut into chunks by an external splitter.
  Each chunk is preprocessed (NUL removal, whitespace collapsing, marker substitution) and chunks
  whose text repeats are dropped (`Preprocess`, `SplitDocs`).
- **Tabulation.** The chunks become a table whose `Full_Content` column is the page header
  followed by the chunk text. The raw metadata list and the `Full_Content` list are saved
  alongside (`Update`).
- **Indexing and query.** The retrieval pipeline indexes the table into a dense vector index plus
  a lexical scorer. It saves and loads the index, and answers a query with de-duplicated dense
  hits (`Ranking`, `LexicalSort`).
- **Answer assembly.** `get_documents` reranks the candidates, maps the three best texts back to
  their ids, and fills the prompt template with those contexts and their page URLs (`GetPrompt`).

Shared vocabulary sits in `Wrappers` (`Option`, `Result`, `Outcome`), `Strings` (join, split,
occurrence, replace-all, padding) and `JsonDoc` (the item tree of a page).

Where the source relies on Python semantics, the model writes that semantics out:

| Python behaviour | Where the model writes it |
|---|---|
| `s[:k]` with a negative `k` | `Ranking.PyTake` |
| `range` with step 0 raises; a negative step gives an empty range | `Ranking.IndexDocuments` |
| `sorted(..., reverse=True)` is stable | `LexicalSort.Before` |
| `int(x / 10)` truncates toward zero | `Preprocess.TruncDiv10` |
| an `re` alternation tries its markers in list order | `Preprocess.MarkerAt` |
| `dict.get` defaults | `Update.Get` |
| `zip` stops at the shorter input | `Scraper.HandleTabs` |
| `KeyError` and `TypeError` exits | explicit error cases of `Result` |

External services are parameters of the operations that use them:

- the embedding model;
- the nearest-neighbour search;
- the lexical scores;
- the text splitter;
- the reranker;
- the clock.

## Model

| member | source | states |
|---|---|---|
| HeaderScan.FindMaxHeaderLevelAndUpdateMeta | update_docs/parse_json.py:56-83 | fails exactly when some top-level item has type `h` (reading position 1 raises); otherwise the returned level bounds every header level and is either 0 or the level of some item; `meta['h1_text']` is set (creating `meta`) exactly when the first level-1 header has a non-empty text, and nothing else changes |
| HeaderScan.FirstH1SkipsPrefix | update_docs/parse_json.py:73-74 | items that are not level-1 headers in front of the first one do not affect which text becomes the title |
| HeaderScan.HeaderLevel | update_docs/parse_json.py:68-70 | a level exists exactly when the type starts with `h` and its second character is an ASCII digit; only that one character is read, so the level is at most 9 |
| HeaderScan.WithH1Text | update_docs/parse_json.py:78-81 | the page gets `h1_text` set to the title; every other metadata key keeps its value and the content is unchanged |
| LinkMerge.ProcessLinksInText | update_docs/parse_json.py:106-120 | an item with links gets the text with every link annotated (`ApplyLinks`) and loses its `links` key; an item without links is returned as is; all other keys are untouched |
| LinkMerge.ApplyLinksIdentity | update_docs/parse_json.py:115-119 | links whose text is blank or does not occur leave the text unchanged |
| LinkMerge.ApplyLinkAnnotatesFirst | update_docs/parse_json.py:119 | a non-blank link text is replaced at its first occurrence by `text (url)` and the replacement continues over the rest of the string |
| LinkMerge.ProcessItem | update_docs/parse_json.py:129-135 | the item's own text has its links applied and its `links` key dropped; its `content` and `items` lists, when present, are replaced by the link pass over them; every other key is untouched, and no dict reachable from it has both text and links |
| LinkMerge.ProcessContent | update_docs/parse_json.py:122-135 | the `i`-th dict of the result is the `i`-th input dict processed, so the list keeps its length and order, and no dict anywhere in it still carries links next to a text |
| LinkMerge.ResolvedIsFixpoint | update_docs/parse_json.py:122-135 | a tree whose links are already resolved is left unchanged |
| LinkMerge.ProcessContentIdempotent | update_docs/parse_json.py:122-135 | running the link pass twice gives the same result as running it once |
| ParagraphMerge.ConcatConsecutiveParagraphs | update_docs/parse_json.py:158-185 | the result is well-formed, has no two adjacent paragraphs at any depth, is no longer than the input, is empty exactly when the input is, and starts with a paragraph exactly when the input does |
| ParagraphMerge.NonParagraphsPreserved | update_docs/parse_json.py:180-184 | the non-paragraph dicts keep their order and number; each only has its own `content` merged recursively |
| ParagraphMerge.ParagraphTextsPreserved | update_docs/parse_json.py:169-179 | no paragraph text is lost, added or reordered: the paragraph texts joined by newlines are the same before and after |
| ParagraphMerge.MergedIsFixpoint | update_docs/parse_json.py:158-185 | a list that already has no adjacent paragraphs at any depth is returned unchanged |
| ParagraphMerge.ConcatConsecutiveParagraphsIdempotent | update_docs/parse_json.py:158-185 | merging twice gives the same result as merging once |
| ParagraphMerge.RunMergedInPlace | update_docs/parse_json.py:163-184 | a maximal run of paragraphs followed by a non-paragraph becomes one paragraph holding the run's texts joined by newlines, in the run's place, followed by the non-paragraph with its own `content` merged, and the rest is merged independently |
| ParagraphMerge.RunMergedAtEnd | update_docs/parse_json.py:163-185 | a list made only of paragraphs becomes one paragraph with their texts joined by newlines |
| ParagraphMerge.NonParagraphInPlace | update_docs/parse_json.py:180-184 | a non-paragraph at the front stays at the front, with its own `content` merged, and the rest is merged independently |
| ListFolding.Attach | update_docs/parse_json.py:224-239 | a list's text is appended to the preceding paragraph itself; otherwise to the first paragraph among the block's children; otherwise it becomes a new trailing paragraph child (creating `content` if missing); the block's other keys and type stay |
| ListFolding.Step | update_docs/parse_json.py:215-243 | one loop iteration keeps the deep no-list property and appends a type exactly when the dict is not a list (where a list goes is stated by `ListFolding.ListFoldedIntoLast`) |
| ListFolding.FoldKinds | update_docs/parse_json.py:214-244 | the dicts the loop keeps are exactly the non-list ones, in order, with their types |
| ListFolding.FoldSnoc | update_docs/parse_json.py:214-243 | the loop over a list with one more dict at the end is one more iteration after the loop over the rest |
| ListFolding.ListFoldedIntoLast | update_docs/parse_json.py:215-240 | a list appended to the input has its text attached (by `Attach`) to the last kept block when that block is a non-empty dict, and is dropped otherwise; every other kept dict is unchanged |
| ListFolding.BlockKeptAtEnd | update_docs/parse_json.py:241-243 | a non-list dict appended to the input is kept at the end, with the lists inside it folded |
| ListFolding.ConcatListItemsToPreviousBlock | update_docs/parse_json.py:206-244 | no list dict remains anywhere in the tree, and the top-level types are those of the non-list input dicts, in order (where each list goes is stated by `ListFolding.ListFoldedIntoLast` and `ListFolding.BlockKeptAtEnd`) |
| ListFolding.LeadingListDropped | update_docs/parse_json.py:217-218 | a list with no block before it is dropped without trace |
| ListFolding.ListAfterBlock | update_docs/parse_json.py:216-240 | a list right after a block becomes part of that block: the two dicts become the one block with the list text attached |
| ListFolding.AttachKeepsNoLists | update_docs/parse_json.py:227-239 | attaching a list's text never introduces a list dict |
| TableRender.MaxCols | update_docs/parse_json.py:272 | the column count bounds every row's length and is attained by some row |
| TableRender.ColumnMax | update_docs/parse_json.py:276-282 | the reference column width bounds every cell text in that column and is attained (or 0) |
| TableRender.ColumnWidthsAreColumnMaxima | update_docs/parse_json.py:271-282 | the width loop, which either widens a known column or appends a new one, yields exactly the widest cell text of each column |
| TableRender.ParseTable | update_docs/parse_json.py:265-294 | a missing or empty `rows` gives the three placeholder lines; otherwise the start marker, one line per row (its cells padded to the column maxima and joined by ` \| `), then the end marker |
| TableRender.ReferenceCellsAligned | update_docs/parse_json.py:284-291 | every rendered cell is exactly as wide as its column's widest text, starts with the cell text, and is padded with spaces |
| Flatten.Tag | update_docs/parse_json.py:310 | definition: the tag is the type written three times |
| Flatten.TextItemFlattens | update_docs/parse_json.py:305-311 | a bare text-kind dict flattens to its tripled type, a newline and its text |
| Flatten.TableItemFlattens | update_docs/parse_json.py:324-326 | a bare table dict flattens to its rendered lines joined by newlines |
| Flatten.ConcatTextsAppend | update_docs/parse_json.py:303-333 | flattening a concatenation is flattening each part and joining them with a newline |
| Flatten.ChildrenEmittedTwice | update_docs/parse_json.py:312-332 | as written, an admonition or details dict with children contributes its tag line and then the flattening of its children twice |
| Flatten.BoxFlattens | update_docs/parse_json.py:312-333 | as written, a lone admonition or details dict flattens to its tag line followed by two copies of its children's text |
| Flatten.AdmonitionParagraphTwice | update_docs/parse_json.py:312-333 | as written, an admonition `T` holding one paragraph `x` flattens to `admonitionadmonitionadmonition\nT` followed by `paragraphparagraphparagraph\nx` twice |
| Flatten.ChildrenEmittedOnce | update_docs/parse_json.py:312-332 | in the corrected flattening, an admonition or details dict contributes its tag line and its children exactly once |
| Flatten.BoxFlattensOnce | update_docs/parse_json.py:312-333 | in the corrected flattening, a lone admonition or details dict flattens to its tag line followed by its children's text once |
| Flatten.OnceAgrees | update_docs/parse_json.py:296-333 | on trees without admonition/details children the corrected flattening agrees with the one as written |
| Flatten.FlattenDoc | update_docs/parse_json.py:346-355 | a page without `content` is skipped; a page with `content` but without `meta` fails; otherwise the output keeps exactly `meta` and the text `concat_texts` gives as written, admonition and details children twice |
| Flatten.FlattenDocOnce | update_docs/parse_json.py:346-355 | the same page handling over the corrected flattening, in which admonition and details children appear once |
| Flatten.FlattenDocAgrees | update_docs/parse_json.py:346-355 | on pages where no admonition or details dict has children, the corrected and the as-written page flattening give the same output |
| Preprocess.ReplaceNul | update_docs/split_docs.py:51 | same length, no NUL left, every other character in place |
| Preprocess.CollapseSpaces | update_docs/split_docs.py:52 | never longer; no two adjacent whitespace characters; every whitespace left is a plain space; a leading whitespace run stays whitespace |
| Preprocess.CollapseKeepsNonSpaces | update_docs/split_docs.py:52 | collapsing keeps every non-whitespace character, in order |
| Preprocess.CollapseAgrees | update_docs/split_docs.py:52 | the collapse equals a character-at-a-time reference: every non-whitespace character is kept, a whitespace character after a non-whitespace one (or at the start) becomes one space, and whitespace after whitespace is dropped |
| Preprocess.StripKeepsNonSpaces | update_docs/split_docs.py:52 | stripping removes whitespace only: the non-whitespace characters are unchanged |
| Preprocess.Strip | update_docs/split_docs.py:52 | the result is a slice of the input with no whitespace at either end |
| Preprocess.Normalise | update_docs/split_docs.py:51-52 | after NUL replacement, collapsing and stripping: no edge whitespace, no double whitespace, no NUL, only plain spaces, and the non-whitespace characters of the NUL-replaced text kept in order |
| Preprocess.MarkerAt | update_docs/split_docs.py:48-49 | the marker matched at a position is the first one in list order that starts there |
| Preprocess.SubstituteUnfold | update_docs/split_docs.py:53 | each output character is a newline where a marker started, or the input character; the scan continues after the whole marker |
| Preprocess.NewlineFreePrefix | update_docs/split_docs.py:53 | a newline-free prefix of the substituted text is a prefix of the input |
| Preprocess.MarkerNotAtStart | update_docs/split_docs.py:53 | the substituted text never starts with a marker |
| Preprocess.NoMarkerRemains | update_docs/split_docs.py:48-53 | no marker occurs anywhere in the substituted text |
| Preprocess.NoMarkerIdentity | update_docs/split_docs.py:53 | text in which no marker occurs passes the substitution unchanged |
| Preprocess.SubstituteChars | update_docs/split_docs.py:53 | every output character is a newline or a character of the input |
| Preprocess.PreprocessText | update_docs/split_docs.py:47-56 | a preprocessed chunk contains no NUL and no marker |
| Preprocess.TruncDiv10 | update_docs/split_docs.py:70 | `int(a / 10)` is the quotient truncated toward zero, for either sign |
| Preprocess.ChunkOverlapOf512 | update_docs/split_docs.py:70 | the chunk size 512 that `split_documents` is called with gives an overlap of 51 |
| SplitDocs.ReadJsonFiles | update_docs/split_docs.py:24-41 | fails exactly when some `.json` entry raises: a read failure other than a missing file or invalid JSON, or a page without `text`; otherwise returns exactly `LoadedNonEmpty` of the listing: the loaded pages with a non-empty text, each once, in listing order |
| SplitDocs.LoadedNonEmpty | update_docs/split_docs.py:27-35 | every kept page is a loaded `.json` page with a non-empty text, and every such page is kept; never longer than the listing |
| SplitDocs.LoadedNonEmptyAppend | update_docs/split_docs.py:27 | the pages kept from two listings one after the other are those of the first followed by those of the second, so listing order is kept |
| SplitDocs.ToChunks | update_docs/split_docs.py:98-102 | one chunk per page carrying its text and metadata; fails exactly when some page has no `meta` |
| SplitDocs.EmitDoc | update_docs/split_docs.py:78-87 | one chunk per splitter piece, each preprocessed and carrying the document's metadata |
| SplitDocs.EmitAppend | update_docs/split_docs.py:78-87 | emission proceeds document by document, so it distributes over concatenation |
| SplitDocs.EmittedChunksFromDocs | update_docs/split_docs.py:78-87 | every emitted chunk is a preprocessed splitter piece of some document with that document's metadata, and has no NUL |
| SplitDocs.DedupContents | update_docs/split_docs.py:89-96 | the kept texts are exactly the input texts not already seen |
| SplitDocs.DedupDistinct | update_docs/split_docs.py:89-96 | the kept texts are pairwise distinct |
| SplitDocs.DedupSubsequence | update_docs/split_docs.py:89-96 | the kept chunks appear in the input in the same order |
| SplitDocs.DedupKeepsFirst | update_docs/split_docs.py:92-94 | for each text, the chunk kept is the first one in the input with that text, so its metadata is that of the first occurrence |
| SplitDocs.DistinctIsFixpoint | update_docs/split_docs.py:89-96 | a list with distinct texts passes the dedup unchanged |
| SplitDocs.DedupIdempotent | update_docs/split_docs.py:89-96 | deduplicating twice gives the same result as deduplicating once |
| SplitDocs.DedupLoop | update_docs/split_docs.py:89-96 | the loop over the `unique_texts` dict computes the reference first-occurrence dedup: distinct texts, and every input text kept |
| SplitDocs.SplitDocuments | update_docs/split_docs.py:58-96 | the output is the dedup of the emitted chunks: a subsequence of them with distinct texts, covering every emitted text, none containing NUL |
| Update.Get | update_docs/update.py:22-26 | definition: the value under the key when present, the default otherwise |
| Update.MakeRow | update_docs/update.py:21-28 | the row's fields are the metadata values with the defaults `ru`, `date`, `url`, `doc` and `head`, and the chunk's text; `Meta` is the citation built from the row's date, URL, section and header, and `Full_Content` is the header, a space and the chunk text |
| Update.GetDf | update_docs/update.py:8-46 | one row per chunk in order; the saved metadata list holds the raw metadata and the saved content list holds each row's `Full_Content` |
| Update.SavedListsAligned | update_docs/update.py:41-44 | the i-th saved text is the header read from the i-th saved metadata, a space, and the i-th chunk's text, and the chunk text can be cut back out |
| Update.CitationShape | update_docs/update.py:42 | the citation starts with ` Parse date: ` and the date, ends with the header, and has the labelled fields' total length |
| LexicalSort.Insert | utils/ranking.py:62 | inserting a position adds exactly that position to the multiset |
| LexicalSort.InsertSorted | utils/ranking.py:62 | inserting a new position into a sorted list keeps it sorted by score descending with ties by position |
| LexicalSort.SortedIndices | utils/ranking.py:61-62 | the sorted positions are a permutation of `0..n-1`, ordered by score descending and, among equal scores, by position ascending (a stable reverse sort) |
| LexicalSort.SortedIndicesPermutation | utils/ranking.py:62 | every position appears exactly once |
| LexicalSort.SortedIndicesOrder | utils/ranking.py:62 | the scores along the order never increase, and equal scores keep ascending positions |
| Ranking.Fresh | utils/ranking.py:16-24 | definition: a new pipeline has an empty index, an empty map, no scorer and no texts |
| Ranking.BuildBm25 | utils/ranking.py:29 | building the scorer fails exactly when every corpus text is empty, which covers the empty corpus: the scorer then divides by a zero corpus size or a zero vocabulary size |
| Ranking.TableHasTokens | update_docs/update.py:43 | a table built from at least one chunk never makes the scorer fail: every `Full_Content` holds at least the space after the header |
| Ranking.AddRow | utils/ranking.py:34-40 | the row's vector is appended and the map gets the row's citation and text under the id `add_item` returned; nothing else changes |
| Ranking.AddRowsMap | utils/ranking.py:31-40 | each row lands under the id equal to the index size before it; all other keys keep their entries |
| Ranking.IndexDocuments | utils/ranking.py:26-40 | `doc_texts` is the `Full_Content` column; a table whose texts are all empty (or no table) fails in the scorer after `doc_texts` is set; step 0 fails after the scorer is set; a negative step adds nothing; a positive step adds every row in order, whatever the batch size |
| Ranking.FreshIndexAligned | utils/ranking.py:31-40 | on a fresh pipeline the map's keys are exactly `0..n-1` and id `i` holds row `i`, whose content is `doc_texts[i]` |
| Ranking.SaveIndex | utils/ranking.py:42-46 | the three paths are written in order, a later write replacing an earlier one to the same path; other paths are untouched |
| Ranking.LoadIndex | utils/ranking.py:48-54 | loading succeeds exactly when all three blobs are present and some text is non-empty, and then restores them and rebuilds the scorer; a missing index leaves the pipeline untouched |
| Ranking.SaveLoadRoundTrip | utils/ranking.py:42-54 | saving to three distinct paths a pipeline with some non-empty text, then loading, gives back the index, map and texts, whatever the loading pipeline held |
| Ranking.SaveLoadIdentity | utils/ranking.py:26-54 | after indexing a table with some non-empty text, save then load gives back the pipeline itself |
| Ranking.SavedPathCollision | utils/ranking.py:42-54 | saving the index and the texts to the same path makes the load fail on the index |
| Ranking.PyTake | utils/ranking.py:68-70 | `s[:k]` is a prefix of `s` of length `min(k, n)`, or `n + k` (at least 0) when `k` is negative |
| Ranking.Lookup | utils/ranking.py:59 | fails exactly when some id is missing from the map; otherwise one candidate per id, with that id's stored citation and text |
| Ranking.Distinct | utils/ranking.py:66-67 | the result has no duplicates and contains exactly the same candidates as the input (the body keeps each at its last occurrence) |
| Ranking.Query | utils/ranking.py:56-70 | fails exactly when a dense id is missing from the map, the scorer is not built, or one of the top-`k` lexical ids is missing; on success the candidates are distinct dense hits with their stored entries, at most `2k` of them, and all dense hits are present when there are at most `k` |
| Ranking.LexicalTop | utils/ranking.py:61-63 | every lexical id taken is a position of the scorer's corpus |
| Ranking.AlignedQuerySucceeds | utils/ranking.py:56-70 | when the map's keys are exactly the corpus positions, no lexical lookup can fail, and the query succeeds exactly when every dense id is a corpus position |
| Ranking.IndexedQuerySucceeds | utils/ranking.py:26-70 | on a pipeline freshly indexed from a table, the query succeeds exactly when every dense id is one of the indexed rows |
| GetPrompt.ContentIndex | utils/get_prompt.py:5 | every result's text is a key, and every key is some result's text |
| GetPrompt.ContentIndexLastWins | utils/get_prompt.py:5 | for a repeated text the recorded id is that of its last occurrence |
| GetPrompt.ContentIndexFromResults | utils/get_prompt.py:5 | every recorded id belongs to a result carrying that text |
| GetPrompt.DocumentStrings | utils/get_prompt.py:6 | definition: the candidate texts, in result order |
| GetPrompt.Indexes | utils/get_prompt.py:8 | definition: for each reranked text, its id when the text is a key and `None` otherwise |
| GetPrompt.Pick | utils/get_prompt.py:10-17 | reading `content_old[indexes[n]]` and `meta[indexes[n]]` succeeds exactly when the index exists, is not `None` and is in range; otherwise it fails with the matching error |
| GetPrompt.Select | utils/get_prompt.py:10-17 | the three contexts and metadata exist exactly when the first three indexes are usable, and are read at those indexes |
| GetPrompt.GetDocuments | utils/get_prompt.py:3-28 | succeeds exactly when the query succeeds, the reranker returns at least three texts, and each of the first three is a result text whose recorded id is in range of `content_old` and `meta`; then context/meta `j` are `content_old`/`meta` at the id recorded for the `j`-th reranked text |
| GetPrompt.ContextsAreRerankedTexts | utils/get_prompt.py:5-17 | when `content_old` holds each id's indexed text, the three contexts are exactly the first three reranked texts |
| GetPrompt.SavedListsMatchFreshIndex | update_docs/update.py:41-44 | the two lists saved beside the table are aligned with the map of a freshly indexed pipeline, and the metadata at an id is that of the chunk at the same position |
| Scraper.FirstPresent | update_docs/parsser.py:33-43 | `None` exactly when no candidate is a segment; otherwise the first candidate, in priority order, that is a segment |
| Scraper.DocSection | update_docs/parsser.py:32-43 | the section is `""` or one of the five names, and a name only when it is a whole `/`-segment of the URL |
| Scraper.DocSectionPriority | update_docs/parsser.py:32-43 | the section is empty exactly when no segment is a section name; otherwise no higher-priority name is a segment |
| Scraper.WholeSegmentsOnly | update_docs/parsser.py:33-34 | a URL whose two segments are not section names gets no section, even when a segment contains one |
| Scraper.Language | update_docs/parsser.py:30-31 | the locale tag's content, or `unknown` when the tag is missing |
| Scraper.MetaInformation | update_docs/parsser.py:29-50 | exactly four keys: the language, the clock reading, the URL and its section |
| Scraper.NormalizeUrl | update_docs/parsser.py:287 | the URL up to its first `#`: a prefix with no `#`, followed in the URL by `#` when shorter; a URL without `#` is unchanged |
| Scraper.NormalizeIdempotent | update_docs/parsser.py:287 | normalising twice gives the same result as normalising once |
| Scraper.Visit | update_docs/parsser.py:287-291 | a page is skipped exactly when its normalised URL was visited or does not start with the base URL; otherwise that URL is added, growing the set by one |
| Scraper.VisitOnce | update_docs/parsser.py:287-291 | once visited, the same URL with any fragment is skipped |
| Scraper.HandleHeader | update_docs/parsser.py:53-58 | a header item carries an empty `content` list |
| Scraper.HandleTabs | update_docs/parsser.py:221-251 | one tab item per label/panel pair, paired by position, as many as the shorter of the two lists |
| Scraper.ParagraphAttachment | update_docs/parsser.py:264-267 | a paragraph is appended to the `content` of the last item when it has one, leaving everything else unchanged, and is dropped otherwise |
| Scraper.ParseContentNoTopParagraph | update_docs/parsser.py:254-283 | no paragraph ever appears at the top level of a page's item list |
| Scraper.ToItem | update_docs/parsser.py:53-251 | a saved entry read back as a dict keeps its type, its tab label and the presence and length of its `content`; each handler's text goes under that handler's key (`title` for an admonition, `summary` for details, `text` for the rest, none for a list or a table); a list carries `items`, a table `rows`; the dict meets every key requirement of the JSON passes |
| Scraper.ParsedItemsNoTopParagraph | update_docs/parsser.py:254-283 | read back as dicts, a page's item list still has no top-level paragraph |
| Scraper.ParagraphRunAttaches | update_docs/parsser.py:260-267 | a run of paragraphs after an item with `content` all land in that item, in order |
| Scraper.HeaderCollectsParagraphs | update_docs/parsser.py:262-267 | a header followed by paragraphs becomes one header item holding those paragraphs |
| Scraper.LeadingParagraphsDropped | update_docs/parsser.py:264-267 | paragraphs before any item are dropped |
| Strings.SplitJoinRoundTrip | update_docs/parsser.py:33 | joining the pieces of `split(c)` with `c` gives back the string |

## Left out

- File and directory I/O is not modelled: listing directories, reading and writing the JSON, pickle and joblib files, and the per-file loops that only call the modelled functions. A directory listing is a sequence of entries, and a store is a map from path to blob.
- The embedding model, the vector index's nearest-neighbour search, the BM25 scores and the text splitter are not modelled. They are parameters of the operations that use them. Scores are integers, because the floating-point arithmetic is not modelled.
- `Ranking.Distinct`: Python's `list(set(...))` order is not specified. The model keeps each candidate at its last occurrence, and every property proved about the query speaks about membership, distinctness and length, never about order.
- `Ranking.Query`: the lexical score of each corpus text is a parameter `score(b, i)`, so there is one score per text, as `get_scores` gives.
- `Ranking.Query` computes the lexical results only for their `KeyError`; they are then discarded, because the line that would merge them is commented out. The model keeps the failure and discards the value.
- `Ranking.LoadIndex`: each stored file is typed by what was saved to it. `joblib.load` does not check types, so in the source a map path that holds the saved text list (saved with the map path equal to the texts path) loads as the collection map, where the model reports a missing file. Corrupt files are not modelled either.
- `Ranking.BuildBm25`: the failure condition follows the `BM25Okapi` class of `rank_bm25`, which is not part of this model. That class takes each character of a text as a token and divides by the corpus size and by the vocabulary size.
- `Ranking.IndexDocuments`: `self.df = df` is not kept, because nothing modelled reads it.
- `Ranking.AddRow`: `add_item` is modelled as returning the next position, which is what the index's ids are.
- `KeyError` paths of the normalisation passes are excluded by `JsonDoc.WellFormed`: a `paragraph` or list entry without `text`, an admonition without `title`, details without `summary`. Only well-formed pages are modelled, because the passes crash on the others.
- The bare `except` at update_docs/parse_json.py:306-309 would reuse a stale `text` from an earlier item. It is excluded by `WellFormed` (text-kind items carry `text`).
- `delete_files_with_language` and `read_json_file`/`write_json_file` of parse_json.py are not modelled: they are file utilities outside the data path.
- The scraper's browser session is not modelled: Selenium, `sleep`, the file name generator, the recursion over the page's links and the error log. Neither is the clock: the parse date is a parameter of `Scraper.MetaInformation`.
- `Scraper.ToItem`: an element does not carry list entries, table headers and rows, `admonition_type` or the links of nested paragraphs. So a converted list has an empty `items` list, a table has an empty `rows` list, and no dict has `links`.
- The internals of `handle_admonition`, `handle_list`, `handle_table`, `handle_details` and `handle_code_block` are not modelled. An element carries what those handlers read, and `Scraper.Step` models only the dispatch order and where each handler's result goes.
- The LLM wrappers, the web UI and the saving helper are not part of this model. Neither is the update script that chains the stages, which only calls them in order.
- The tokenizer-based chunk sizing inside the splitter is not modelled: only the overlap `int(chunk_size / 10)` is computed.
- `HeaderScan.HeaderLevel`: only the ASCII digits `0`-`9` are read as a level. Python's `int()` also accepts other Unicode decimal digits (`"h٣"` gives 3); the scraper writes header types from the tag names `h1`-`h6`, so no page carries such a type.
- `SplitDocs.ReadJsonFiles`: a JSON file whose top level is not an object, or whose `text` is not a string, is not modelled; a parsed page is a `Page`.
- `Prompt` carries no contract. It is the fixed template, and the properties that matter (which contexts and metadata fill it) are stated on `GetPrompt.GetDocuments` and `GetPrompt.Select`.

## Findings

| source | as written | input that shows it | evidently intended | confidence | as-written member | corrected member |
|---|---|---|---|---|---|---|
| update_docs/parse_json.py:316-317, 322-323, 331-332 | an admonition or details dict with `content` appends the flattening of its children in its own branch and again in the generic `content` branch, so the children's text appears twice in the flattened page (and so in the chunks) | `[{"type": "admonition", "title": "T", "content": [{"type": "paragraph", "text": "x"}]}]` flattens to `admonitionadmonitionadmonition\nT\nparagraphparagraphparagraph\nx\nparagraphparagraphparagraph\nx` | the children are emitted once, after the tag line | not executed | Flatten.AdmonitionParagraphTwice | Flatten.BoxFlattensOnce |

`Flatten.FlattenDoc` models the page flattening as written, with the duplication.
`Flatten.FlattenDocOnce` is the same page handling over the corrected flattening
`Flatten.ConcatTextsOnce`, and `Flatten.FlattenDocAgrees` shows that the two agree wherever no
admonition or details dict has children.

=== FILE: flatten.dfy ===
/** `concat_texts`: a normalised content tree flattened into one tagged string, each piece on its
    own line(s), and the per-file step that keeps only `meta` and that string. */
module Flatten {
  import opened Wrappers
  import opened Strings
  import opened JsonDoc
  import opened TableRender

  /** `f"{type}{type}{type}"`, the tag written before a text. */
  function Tag(k: string): (r: string)
    ensures |r| == 3 * |k|
    ensures r[..|k|] == k && r[|k|..2 * |k|] == k && r[2 * |k|..] == k
  {
    k + k + k
  }

  /** A tag line: the tag, a newline, then the text. */
  function Tagged(k: string, t: string): string
  {
    Tag(k) + "\n" + t
  }

  /** What a dict's own `type` contributes, before its `tab_label` and its `content`. `nested`
      is the flattening of its children, which admonition and details append here as well. */
  function KindPieces(it: Item, nested: string): (r: seq<string>)
    requires WellFormed(it)
  {
    if it.kind.Some? && IsTextKind(it.kind.value) then [Tagged(it.kind.value, it.text.value)]
    else if it.kind == Some("admonition") then
      [Tagged("admonition", it.title.value)] + (if it.content.Present? then [nested] else [])
    else if it.kind == Some("details") then
      [Tagged("details", it.summary.value)] + (if it.content.Present? then [nested] else [])
    else if it.kind == Some("table") then ParseTable(it)
    else []
  }

  /** The `tab_label` piece, `"\n" + label`. */
  function TabPieces(it: Item): seq<string>
  {
    if it.tabLabel.Some? then ["\n" + it.tabLabel.value] else []
  }

  /** The pieces one dict appends, in the order of the source's `if`s. */
  function ItemPieces(it: Item): (r: seq<string>)
    requires WellFormed(it)
    decreases it, 0
  {
    var nested := if it.content.Present? then ConcatTexts(it.content.list) else "";
    KindPieces(it, nested) + TabPieces(it) + (if it.content.Present? then [nested] else [])
  }

  /** The pieces of a whole list, dict after dict. */
  function Pieces(items: seq<Item>): seq<string>
    requires AllWellFormed(items)
    decreases items, 1
  {
    if |items| == 0 then [] else ItemPieces(items[0]) + Pieces(items[1..])
  }

  /** `concat_texts` as written. */
  function ConcatTexts(items: seq<Item>): string
    requires AllWellFormed(items)
    decreases items, 2
  {
    Join(Pieces(items), "\n")
  }

  /** The pieces of a concatenation are the concatenation of the pieces. */
  lemma {:induction false} PiecesAppend(a: seq<Item>, b: seq<Item>)
    requires AllWellFormed(a) && AllWellFormed(b)
    ensures AllWellFormed(a + b)
    ensures Pieces(a + b) == Pieces(a) + Pieces(b)
    decreases |a|
  {
    assert AllWellFormed(a + b) by {
      assert forall i | 0 <= i < |a + b| :: (a + b)[i] == if i < |a| then a[i] else b[i - |a|];
    }
    if |a| == 0 {
      assert a + b == b;
    } else {
      assert (a + b)[1..] == a[1..] + b;
      PiecesAppend(a[1..], b);
    }
  }

  /** A text-kind dict without `tab_label` or `content` is its tag line and nothing else. */
  lemma TextItemFlattens(it: Item)
    requires WellFormed(it) && it.kind.Some? && IsTextKind(it.kind.value)
    requires it.tabLabel.None? && it.content.Absent?
    ensures ConcatTexts([it]) == Tag(it.kind.value) + "\n" + it.text.value
  {
    assert [it][1..] == [];
    assert ItemPieces(it) == [Tagged(it.kind.value, it.text.value)];
    assert Pieces([it]) == [Tagged(it.kind.value, it.text.value)] + [];
  }

  /** A bare table contributes exactly its rendered lines. */
  lemma TableItemFlattens(it: Item)
    requires WellFormed(it) && it.kind == Some("table")
    requires it.tabLabel.None? && it.content.Absent?
    ensures ConcatTexts([it]) == Join(ParseTable(it), "\n")
  {
    assert [it][1..] == [];
    assert Pieces([it]) == ParseTable(it) + [];
    assert ParseTable(it) + [] == ParseTable(it);
  }

  /** Flattening two lists and joining the results with a newline is flattening their
      concatenation, as long as both contribute something. */
  lemma ConcatTextsAppend(a: seq<Item>, b: seq<Item>)
    requires AllWellFormed(a) && AllWellFormed(b)
    requires |Pieces(a)| > 0 && |Pieces(b)| > 0
    ensures AllWellFormed(a + b)
    ensures ConcatTexts(a + b) == ConcatTexts(a) + "\n" + ConcatTexts(b)
  {
    PiecesAppend(a, b);
    JoinAppend(Pieces(a), Pieces(b), "\n");
  }

  /** An admonition (or details) dict with children emits the children's flattening twice:
      once from its own branch and once from the generic `content` branch. */
  lemma {:induction false} ChildrenEmittedTwice(it: Item)
    requires WellFormed(it) && (it.kind == Some("admonition") || it.kind == Some("details"))
    requires it.content.Present? && it.tabLabel.None?
    ensures ItemPieces(it) == [Tagged(it.kind.value, if it.kind == Some("admonition") then it.title.value else it.summary.value),
                               ConcatTexts(it.content.list), ConcatTexts(it.content.list)]
  {
  }

  /** The whole flattening of a lone admonition (or details) dict with children. */
  lemma BoxFlattens(it: Item)
    requires WellFormed(it) && (it.kind == Some("admonition") || it.kind == Some("details"))
    requires it.content.Present? && it.tabLabel.None?
    ensures ConcatTexts([it]) ==
      Tagged(it.kind.value, if it.kind == Some("admonition") then it.title.value else it.summary.value)
      + "\n" + ConcatTexts(it.content.list) + "\n" + ConcatTexts(it.content.list)
  {
    ChildrenEmittedTwice(it);
    SingletonPieces(it);
    var h := Tagged(it.kind.value, if it.kind == Some("admonition") then it.title.value else it.summary.value);
    var c := ConcatTexts(it.content.list);
    JoinThree(h, c, c, "\n");
  }

  /** A one-dict list flattens to that dict's pieces. */
  lemma SingletonPieces(it: Item)
    requires WellFormed(it)
    ensures Pieces([it]) == ItemPieces(it)
  {
    assert [it][1..] == [];
    assert ItemPieces(it) + [] == ItemPieces(it);
  }

  lemma JoinThree(a: string, b: string, c: string, sep: string)
    ensures Join([a, b, c], sep) == a + sep + b + sep + c
  {
    assert [a, b, c][1..] == [b, c] && [b, c][1..] == [c];
    assert Join([b, c], sep) == b + sep + c;
    assert a + sep + (b + sep + c) == a + sep + b + sep + c;
  }

  /** A concrete instance: one admonition titled "T" holding the single paragraph "x" flattens to
      its tag line followed by the paragraph's tag line twice. */
  lemma AdmonitionParagraphTwice()
    ensures
      var p := ParagraphItem("x");
      var adm := EmptyItem.(kind := Some("admonition"), title := Some("T"), content := Present([p]));
      WellFormed(adm) &&
      ConcatTexts([adm]) == Tagged("admonition", "T") + "\n" + Tagged("paragraph", "x") + "\n" + Tagged("paragraph", "x")
  {
    var p := ParagraphItem("x");
    var adm := EmptyItem.(kind := Some("admonition"), title := Some("T"), content := Present([p]));
    TextItemFlattens(p);
    BoxFlattens(adm);
  }

  // ---------------------------------------------------------------------------------------
  // The flattening with each dict's children emitted once.

  /** `ItemPieces` without the copy of the children that admonition and details append in
      their own branch; the generic `content` branch still emits them. */
  function ItemPiecesOnce(it: Item): (r: seq<string>)
    requires WellFormed(it)
    decreases it, 0
  {
    var own :=
      if it.kind == Some("admonition") then [Tagged("admonition", it.title.value)]
      else if it.kind == Some("details") then [Tagged("details", it.summary.value)]
      else KindPieces(it, "");
    own + TabPieces(it) + (if it.content.Present? then [ConcatTextsOnce(it.content.list)] else [])
  }

  function PiecesOnce(items: seq<Item>): seq<string>
    requires AllWellFormed(items)
    decreases items, 1
  {
    if |items| == 0 then [] else ItemPiecesOnce(items[0]) + PiecesOnce(items[1..])
  }

  function ConcatTextsOnce(items: seq<Item>): string
    requires AllWellFormed(items)
    decreases items, 2
  {
    Join(PiecesOnce(items), "\n")
  }

  /** In the corrected flattening an admonition (or details) with children emits its tag line
      and then the children exactly once. */
  lemma ChildrenEmittedOnce(it: Item)
    requires WellFormed(it) && (it.kind == Some("admonition") || it.kind == Some("details"))
    requires it.content.Present? && it.tabLabel.None?
    ensures ItemPiecesOnce(it) == [Tagged(it.kind.value, if it.kind == Some("admonition") then it.title.value else it.summary.value),
                                   ConcatTextsOnce(it.content.list)]
  {
  }

  /** In the corrected flattening a lone admonition (or details) dict with children flattens to
      its tag line followed by its children's text once. */
  lemma BoxFlattensOnce(it: Item)
    requires WellFormed(it) && (it.kind == Some("admonition") || it.kind == Some("details"))
    requires it.content.Present? && it.tabLabel.None?
    ensures ConcatTextsOnce([it]) ==
      Tagged(it.kind.value, if it.kind == Some("admonition") then it.title.value else it.summary.value)
      + "\n" + ConcatTextsOnce(it.content.list)
  {
    ChildrenEmittedOnce(it);
    assert [it][1..] == [];
    var h := Tagged(it.kind.value, if it.kind == Some("admonition") then it.title.value else it.summary.value);
    var c := ConcatTextsOnce(it.content.list);
    assert PiecesOnce([it]) == [h, c] + [];
    assert [h, c] + [] == [h, c];
    assert [h, c][1..] == [c];
    assert Join([h, c], "\n") == h + "\n" + c;
  }

  /** No admonition or details dict with children anywhere in the tree. */
  predicate NoBoxedChildren(it: Item)
    decreases it
  {
    && !((it.kind == Some("admonition") || it.kind == Some("details")) && it.content.Present?)
    && (it.content.Present? ==> AllNoBoxedChildren(it.content.list))
  }

  predicate AllNoBoxedChildren(items: seq<Item>)
    decreases items
  {
    forall i | 0 <= i < |items| :: NoBoxedChildren(items[i])
  }

  /** Where the duplication cannot arise, the corrected flattening agrees with the one as written. */
  lemma {:induction false} OnceAgreesItem(it: Item)
    requires WellFormed(it) && NoBoxedChildren(it)
    ensures ItemPiecesOnce(it) == ItemPieces(it)
    decreases it, 0
  {
    if it.content.Present? {
      OnceAgrees(it.content.list);
    }
  }

  lemma {:induction false} OnceAgrees(items: seq<Item>)
    requires AllWellFormed(items) && AllNoBoxedChildren(items)
    ensures PiecesOnce(items) == Pieces(items)
    ensures ConcatTextsOnce(items) == ConcatTexts(items)
    decreases items, 1
  {
    if |items| > 0 {
      OnceAgreesItem(items[0]);
      OnceAgrees(items[1..]);
    }
  }

  /** The output record of a flattened page. */
  datatype Flat = Flat(meta: map<string, string>, text: string)

  datatype FlattenError = MissingMeta

  /** One file of the last `process_json_files`: a page with `content` keeps its `meta` and its
      flattened text, computed by `concat_texts` as written; a page without `content` is skipped;
      a page without `meta` raises `KeyError`. */
  function FlattenDoc(doc: Doc): (r: Option<Result<Flat, FlattenError>>)
    requires doc.content.Some? ==> AllWellFormed(doc.content.value)
    ensures doc.content.None? <==> r.None?
    ensures r.Some? ==> (r.value.Failure? <==> doc.meta.None?)
    ensures r.Some? && r.value.Success? ==>
      r.value.value.meta == doc.meta.value && r.value.value.text == ConcatTexts(doc.content.value)
  {
    match doc.content
    case None => None
    case Some(items) =>
      match doc.meta
      case None => Some(Failure(MissingMeta))
      case Some(m) => Some(Success(Flat(m, ConcatTexts(items))))
  }

  /** The same step with the corrected flattening, which writes the children of an admonition or
      details dict once. */
  function FlattenDocOnce(doc: Doc): (r: Option<Result<Flat, FlattenError>>)
    requires doc.content.Some? ==> AllWellFormed(doc.content.value)
    ensures doc.content.None? <==> r.None?
    ensures r.Some? ==> (r.value.Failure? <==> doc.meta.None?)
    ensures r.Some? && r.value.Success? ==>
      r.value.value.meta == doc.meta.value && r.value.value.text == ConcatTextsOnce(doc.content.value)
  {
    match doc.content
    case None => None
    case Some(items) =>
      match doc.meta
      case None => Some(Failure(MissingMeta))
      case Some(m) => Some(Success(Flat(m, ConcatTextsOnce(items))))
  }

  /** The two steps give the same page whenever no admonition or details dict has children. */
  lemma FlattenDocAgrees(doc: Doc)
    requires doc.content.Some? ==> AllWellFormed(doc.content.value) && AllNoBoxedChildren(doc.content.value)
    ensures FlattenDocOnce(doc) == FlattenDoc(doc)
  {
    if doc.content.Some? {
      OnceAgrees(doc.content.value);
    }
  }
}

=== FILE: get_prompt.dfy ===
/** `get_documents`: retrieve twenty candidates, let the reranker pick from their texts, map each
    picked text back to a candidate id, and build the prompt from the three best contexts and their
    page URLs. */
module GetPrompt {
  import opened Wrappers
  import opened SplitDocs
  import opened Update
  import opened Ranking

  /** The `k` of the retrieval call. */
  const RetrievalK: int := 20
  /** The `k` of the rerank call. */
  const RerankK: nat := 5

  /** `{i['content']: i['index'] for i in raw_results}`: a later result with the same text
      overwrites an earlier one. */
  function ContentIndex(raw: seq<Candidate>): (m: map<string, nat>)
    ensures forall i | 0 <= i < |raw| :: raw[i].content in m
    ensures forall t | t in m :: exists i | 0 <= i < |raw| :: raw[i].content == t
  {
    if |raw| == 0 then map[]
    else
      var init := raw[..|raw| - 1];
      var last := raw[|raw| - 1];
      assert forall i | 0 <= i < |init| :: init[i] == raw[i];
      ContentIndex(init)[last.content := last.index]
  }

  /** The id recorded for a text is that of its last occurrence among the results. */
  lemma {:induction false} ContentIndexLastWins(raw: seq<Candidate>, i: nat)
    requires i < |raw|
    requires forall j | i < j < |raw| :: raw[j].content != raw[i].content
    ensures ContentIndex(raw)[raw[i].content] == raw[i].index
  {
    if i < |raw| - 1 {
      var init := raw[..|raw| - 1];
      assert init[i] == raw[i];
      assert forall j | i < j < |init| :: init[j] == raw[j];
      ContentIndexLastWins(init, i);
    }
  }

  /** Every recorded id belongs to a result carrying that text. */
  lemma {:induction false} ContentIndexFromResults(raw: seq<Candidate>, t: string)
    requires t in ContentIndex(raw)
    ensures exists i | 0 <= i < |raw| :: raw[i].content == t && raw[i].index == ContentIndex(raw)[t]
  {
    var last := raw[|raw| - 1];
    if last.content != t {
      var init := raw[..|raw| - 1];
      ContentIndexFromResults(init, t);
      var i :| 0 <= i < |init| && init[i].content == t && init[i].index == ContentIndex(init)[t];
      assert raw[i] == init[i];
    }
  }

  /** `documents_as_strings`: the texts of the results, in order. */
  function DocumentStrings(raw: seq<Candidate>): (r: seq<string>)
    ensures |r| == |raw|
    ensures forall i | 0 <= i < |raw| :: r[i] == raw[i].content
  {
    seq(|raw|, i requires 0 <= i < |raw| => raw[i].content)
  }

  /** `[seq.get(elem['content']) for elem in contents]`. */
  function Indexes(m: map<string, nat>, reranked: seq<string>): (r: seq<Option<nat>>)
    ensures |r| == |reranked|
    ensures forall i | 0 <= i < |reranked| :: (r[i].Some? <==> reranked[i] in m)
    ensures forall i | 0 <= i < |reranked| && reranked[i] in m :: r[i] == Some(m[reranked[i]])
  {
    seq(|reranked|, i requires 0 <= i < |reranked| => if reranked[i] in m then Some(m[reranked[i]]) else None)
  }

  datatype PromptError =
    | RetrievalFailed(e: PipelineError)
    | TooFewResults      // `indexes[n]` past the end
    | NoIndex            // a `None` index used as a list index
    | OutOfRange(i: nat) // an index past the end of `content_old` or `meta`

  /** `content_old[indexes[n]]` and `meta[indexes[n]]`, failing the way Python does. */
  function Pick(indexes: seq<Option<nat>>, contentOld: seq<string>, meta: seq<Meta>, n: nat): (r: Result<(string, Meta), PromptError>)
    ensures r.Success? <==>
      n < |indexes| && indexes[n].Some? && indexes[n].value < |contentOld| && indexes[n].value < |meta|
    ensures r.Success? ==> r.value == (contentOld[indexes[n].value], meta[indexes[n].value])
    ensures r.Failure? && n >= |indexes| ==> r.error == TooFewResults
    ensures r.Failure? && n < |indexes| && indexes[n].None? ==> r.error == NoIndex
  {
    if n >= |indexes| then Failure(TooFewResults)
    else if indexes[n].None? then Failure(NoIndex)
    else if indexes[n].value >= |contentOld| || indexes[n].value >= |meta| then Failure(OutOfRange(indexes[n].value))
    else Success((contentOld[indexes[n].value], meta[indexes[n].value]))
  }

  /** The three contexts and their metadata, picked in the order the source reads them. */
  function Select(indexes: seq<Option<nat>>, contentOld: seq<string>, meta: seq<Meta>): (r: Result<(seq<string>, seq<Meta>), PromptError>)
    ensures r.Success? <==>
      |indexes| >= 3 &&
      forall j | 0 <= j < 3 :: indexes[j].Some? && indexes[j].value < |contentOld| && indexes[j].value < |meta|
    ensures r.Success? ==>
      && |r.value.0| == 3 && |r.value.1| == 3
      && forall j | 0 <= j < 3 :: r.value.0[j] == contentOld[indexes[j].value] && r.value.1[j] == meta[indexes[j].value]
  {
    var a :- Pick(indexes, contentOld, meta, 0);
    var b :- Pick(indexes, contentOld, meta, 1);
    var c :- Pick(indexes, contentOld, meta, 2);
    Success(([a.0, b.0, c.0], [a.1, b.1, c.1]))
  }

  /** `meta.get('current_url', '-')`. */
  function UrlOf(m: Meta): string
  {
    Get(m, "current_url", "-")
  }

  /** The prompt template, with the query and the three contexts and URLs filled in. */
  function Prompt(query: string, contexts: seq<string>, metas: seq<Meta>): (r: string)
    requires |contexts| == 3 && |metas| == 3
  {
    "\n        Вопрос:" + query +
    "\n        Ответь на вопрос, используя контекст" +
    "\n        '" + contexts[0] + ". Ссылка: " + UrlOf(metas[0]) + "'," +
    "\n        '" + contexts[1] + ". Ссылка: " + UrlOf(metas[1]) + "'," +
    "\n        '" + contexts[2] + ". Ссылка: " + UrlOf(metas[2]) + "'" +
    "\n        Ответ:\n        \n    "
  }

  datatype Answer = Answer(prompt: string, contexts: seq<string>, metas: seq<Meta>)

  /** `get_documents`. `dense` is what the nearest-neighbour search returns for the query with
      `k = 20`, `score` the lexical score of each corpus text, and `rerank` the reranker's chosen
      texts for the query, the candidate texts and `k = 5`. */
  function GetDocuments<V>(query: string, p: Pipeline<V>, dense: seq<nat>, score: (Bm25, nat) -> int,
                           rerank: (string, seq<string>, nat) -> seq<string>,
                           contentOld: seq<string>, meta: seq<Meta>): (r: Result<Answer, PromptError>)
    ensures r.Success? <==>
      && Query(p, dense, score, RetrievalK).Success?
      && var raw := Query(p, dense, score, RetrievalK).value;
         var picked := rerank(query, DocumentStrings(raw), RerankK);
         && |picked| >= 3
         && forall j | 0 <= j < 3 ::
              && picked[j] in ContentIndex(raw)
              && ContentIndex(raw)[picked[j]] < |contentOld| && ContentIndex(raw)[picked[j]] < |meta|
    ensures r.Success? ==> |r.value.contexts| == 3 && |r.value.metas| == 3
    ensures r.Success? ==>
      var raw := Query(p, dense, score, RetrievalK).value;
      var picked := rerank(query, DocumentStrings(raw), RerankK);
      forall j | 0 <= j < 3 ::
        && r.value.contexts[j] == contentOld[ContentIndex(raw)[picked[j]]]
        && r.value.metas[j] == meta[ContentIndex(raw)[picked[j]]]
  {
    match Query(p, dense, score, RetrievalK)
    case Failure(e) => Failure(RetrievalFailed(e))
    case Success(raw) =>
      var picked := rerank(query, DocumentStrings(raw), RerankK);
      var indexes := Indexes(ContentIndex(raw), picked);
      match Select(indexes, contentOld, meta)
      case Failure(e) => Failure(e)
      case Success(sel) => Success(Answer(Prompt(query, sel.0, sel.1), sel.0, sel.1))
  }

  /** When every candidate's text is the stored text of its id, and `content_old` holds the stored
      text at each id, the contexts are exactly the first three texts the reranker picked. */
  lemma ContextsAreRerankedTexts(raw: seq<Candidate>, picked: seq<string>, m: map<nat, Entry>,
                                 contentOld: seq<string>, meta: seq<Meta>)
    requires forall c | c in raw :: c.index in m && c.content == m[c.index].content
    requires forall id | id in m :: id < |contentOld| && id < |meta| && contentOld[id] == m[id].content
    requires |picked| >= 3 && forall j | 0 <= j < 3 :: picked[j] in DocumentStrings(raw)
    ensures Select(Indexes(ContentIndex(raw), picked), contentOld, meta).Success?
    ensures Select(Indexes(ContentIndex(raw), picked), contentOld, meta).value.0 == picked[..3]
  {
    var cm := ContentIndex(raw);
    var ds := DocumentStrings(raw);
    forall j | 0 <= j < 3 ensures picked[j] in cm && cm[picked[j]] in m && contentOld[cm[picked[j]]] == picked[j] {
      var k :| 0 <= k < |ds| && ds[k] == picked[j];
      assert raw[k].content == picked[j];
      ContentIndexFromResults(raw, picked[j]);
      var i :| 0 <= i < |raw| && raw[i].content == picked[j] && raw[i].index == cm[picked[j]];
      assert raw[i] in raw;
    }
    var ix := Indexes(cm, picked);
    assert ix[0] == Some(cm[picked[0]]) && ix[1] == Some(cm[picked[1]]) && ix[2] == Some(cm[picked[2]]);
    var sel := Select(ix, contentOld, meta).value.0;
    assert sel[0] == picked[0] && sel[1] == picked[1] && sel[2] == picked[2];
  }

  /** The table built from the chunks, indexed into a fresh pipeline, meets the alignment the
      lemma above needs, with `content_old` and `meta` the two lists saved next to the table; the
      metadata picked for an id is that of the chunk whose text is picked. */
  lemma SavedListsMatchFreshIndex<V>(docs: seq<Chunk>, embed: string -> V)
    ensures
      var f := GetDf(docs);
      var m := AddRows(Fresh<V>(), embed, f.rows).collectionMap;
      && (forall id | id in m :: id < |f.savedContent| && id < |f.savedMeta| && f.savedContent[id] == m[id].content)
      && (forall id | id in m :: f.savedMeta[id] == docs[id].meta && m[id].content == Get(docs[id].meta, "h1_text", "head") + " " + docs[id].content)
  {
    var f := GetDf(docs);
    FreshIndexAligned(f.rows, embed);
  }
}

=== FILE: headers.dfy ===
/** The header scan of `find_max_header_level_and_update_meta`: the deepest header level among a
    page's top-level items, and the page title copied from its first level-1 header. */
module HeaderScan {
  import opened Wrappers
  import opened JsonDoc

  /** The exception the scan can raise: `type == "h"` has no character at position 1. */
  datatype ScanError = IndexOutOfRange

  /** The item's type starts with 'h', so the scan reads the character after it. */
  predicate StartsWithH(it: Item)
  {
    it.kind.Some? && "h" <= it.kind.value
  }

  /** The level `int(type[1])` yields: only position 1 is read, so `h10` is level 1; a
      non-digit there raises `ValueError`, which the scan skips. */
  function HeaderLevel(it: Item): (r: Option<nat>)
    ensures r.Some? ==> r.value <= 9
    ensures r.Some? <==> StartsWithH(it) && |it.kind.value| >= 2 && '0' <= it.kind.value[1] <= '9'
  {
    if StartsWithH(it) && |it.kind.value| >= 2 && '0' <= it.kind.value[1] <= '9'
    then Some(it.kind.value[1] as nat - '0' as nat)
    else None
  }

  /** Reference definition: the text (`''` when missing) of the first level-1 header, if any. */
  function FirstH1Text(items: seq<Item>): Option<string>
  {
    if |items| == 0 then None
    else if HeaderLevel(items[0]) == Some(1) then Some(items[0].text.GetOr(""))
    else FirstH1Text(items[1..])
  }

  /** The page with `meta['h1_text']` set to `t`, creating `meta` when it is missing. */
  function WithH1Text(doc: Doc, t: string): (r: Doc)
    ensures r.content == doc.content
    ensures r.meta.Some? && "h1_text" in r.meta.value && r.meta.value["h1_text"] == t
    ensures forall k | k != "h1_text" :: doc.meta.Some? && k in doc.meta.value <==> k in r.meta.value
    ensures forall k | k != "h1_text" && doc.meta.Some? && k in doc.meta.value :: r.meta.value[k] == doc.meta.value[k]
  {
    var m := if doc.meta.Some? then doc.meta.value else map[];
    doc.(meta := Some(m["h1_text" := t]))
  }

  /** Scans the top-level items once, in order. On success returns the maximum level (0 when
      there is none) and the page, updated only when the first level-1 header has non-empty text. */
  method FindMaxHeaderLevelAndUpdateMeta(doc: Doc) returns (r: Result<(nat, Doc), ScanError>)
    ensures r.Failure? <==> doc.content.Some? && exists i | 0 <= i < |doc.content.value| :: doc.content.value[i].kind == Some("h")
    ensures r.Success? && doc.content.None? ==> r.value == (0, doc)
    ensures r.Success? && doc.content.Some? ==>
      var items := doc.content.value;
      && (forall i | 0 <= i < |items| && HeaderLevel(items[i]).Some? :: HeaderLevel(items[i]).value <= r.value.0)
      && (r.value.0 == 0 || exists i | 0 <= i < |items| :: HeaderLevel(items[i]) == Some(r.value.0))
    ensures r.Success? && doc.content.Some? ==>
      var h1 := FirstH1Text(doc.content.value);
      r.value.1 == if h1.Some? && h1.value != "" then WithH1Text(doc, h1.value) else doc
  {
    var maxLevel: nat := 0;
    var h1: Option<string> := None;
    if doc.content.Some? {
      var items := doc.content.value;
      var i := 0;
      while i < |items|
        invariant 0 <= i <= |items|
        invariant forall j | 0 <= j < i :: items[j].kind != Some("h")
        invariant forall j | 0 <= j < i && HeaderLevel(items[j]).Some? :: HeaderLevel(items[j]).value <= maxLevel
        invariant maxLevel == 0 || exists j | 0 <= j < i :: HeaderLevel(items[j]) == Some(maxLevel)
        invariant FirstH1Text(items) == if h1.Some? then h1 else FirstH1Text(items[i..])
      {
        var it := items[i];
        assert items[i..][1..] == items[i + 1..];
        if StartsWithH(it) {
          if |it.kind.value| < 2 {
            assert |it.kind.value| == 1 && it.kind.value[0] == 'h';
            assert it.kind.value == "h";
            return Failure(IndexOutOfRange);
          }
          var c := it.kind.value[1];
          if '0' <= c <= '9' {
            var level: nat := c as nat - '0' as nat;
            if level > maxLevel {
              maxLevel := level;
            }
            if level == 1 && h1.None? {
              h1 := Some(it.text.GetOr(""));
            }
          }
        }
        i := i + 1;
      }
      assert items[i..] == [];
    }
    var newDoc := if h1.Some? && h1.value != "" then WithH1Text(doc, h1.value) else doc;
    r := Success((maxLevel, newDoc));
  }

  /** Items that are not level-1 headers in front of the first one do not change the title. */
  lemma {:induction false} FirstH1SkipsPrefix(pre: seq<Item>, rest: seq<Item>)
    requires forall i | 0 <= i < |pre| :: HeaderLevel(pre[i]) != Some(1)
    ensures FirstH1Text(pre + rest) == FirstH1Text(rest)
  {
    if |pre| > 0 {
      assert (pre + rest)[0] == pre[0];
      assert (pre + rest)[1..] == pre[1..] + rest;
      FirstH1SkipsPrefix(pre[1..], rest);
    } else {
      assert pre + rest == rest;
    }
  }
}

=== FILE: json_doc.dfy ===
/** The JSON tree a scraped documentation page is stored as, and the shape facts shared by the
    normalisation passes. Each dict of the source becomes an `Item` whose keys are optional. */
module JsonDoc {
  import opened Wrappers

  /** One `{"text": ..., "url": ...}` entry of a `links` list. */
  datatype Link = Link(text: string, url: string)

  /** A table cell; only its `text` key is ever read. */
  datatype Cell = Cell(text: Option<string>)

  /** A list-valued key (`content` or `items`) that a dict may or may not carry. */
  datatype Children = Absent | Present(list: seq<Item>)

  /** A content dict. Keys that no pass reads (`headers`, `admonition_type`) are not kept. */
  datatype Item = Item(
    kind: Option<string>,             // "type"
    text: Option<string>,
    title: Option<string>,
    summary: Option<string>,
    tabLabel: Option<string>,         // "tab_label"
    links: Option<seq<Link>>,
    content: Children,
    items: Children,
    rows: Option<seq<seq<Cell>>>)

  /** A page file: its `meta` dict and its top-level `content` list, either of which may be missing. */
  datatype Doc = Doc(meta: Option<map<string, string>>, content: Option<seq<Item>>)

  /** The empty dict `{}`. */
  const EmptyItem: Item := Item(None, None, None, None, None, None, Absent, Absent, None)

  /** `{"type": "paragraph", "text": t}`, the dict the merging passes create. */
  function ParagraphItem(t: string): (r: Item)
    ensures IsParagraph(r) && r.text == Some(t)
  {
    EmptyItem.(kind := Some("paragraph"), text := Some(t))
  }

  predicate IsParagraph(it: Item)
  {
    it.kind == Some("paragraph")
  }

  /** `item.get('type') in ['unordered', 'ordered']`. */
  predicate IsList(it: Item)
  {
    it.kind == Some("ordered") || it.kind == Some("unordered")
  }

  /** Python truthiness of a dict: it has at least one key. */
  predicate Truthy(it: Item)
  {
    it != EmptyItem
  }

  /** The list under a `content`/`items` key, or `[]` when the key is missing. */
  function ListOr(c: Children): seq<Item>
  {
    match c
    case Absent => []
    case Present(l) => l
  }

  /** The types whose `text` the flattening emits under a tag (`concat_texts`). */
  predicate IsTextKind(k: string)
  {
    k == "h1" || k == "h2" || k == "h3" || k == "h4" || k == "h5" || k == "paragraph" || k == "code"
  }

  /** The keys the normalisation and flattening passes index without a default are present, at
      every depth reachable through `content`: a missing one raises `KeyError` in the source. */
  predicate WellFormed(it: Item)
    decreases it
  {
    && (it.kind.Some? && IsTextKind(it.kind.value) ==> it.text.Some?)
    && (it.kind == Some("admonition") ==> it.title.Some?)
    && (it.kind == Some("details") ==> it.summary.Some?)
    && (IsList(it) ==> forall li | li in ListOr(it.items) :: li.text.Some?)
    && (it.content.Present? ==> AllWellFormed(it.content.list))
  }

  predicate AllWellFormed(items: seq<Item>)
    decreases items
  {
    forall i | 0 <= i < |items| :: WellFormed(items[i])
  }

  /** The `type` of every item, in order (`None` where the key is missing). */
  function Kinds(items: seq<Item>): (r: seq<Option<string>>)
  {
    seq(|items|, i requires 0 <= i < |items| => items[i].kind)
  }
}

=== FILE: links.dfy ===
/** `process_links_in_text` and `process_content`: every link recorded next to a text is written
    into that text as `link text (url)` and the `links` key is deleted. */
module LinkMerge {
  import opened Wrappers
  import opened Strings
  import opened JsonDoc

  /** Link texts the merge skips. */
  predicate IsBlankLinkText(t: string)
  {
    t == "" || t == " "
  }

  /** What a link's text is replaced by. */
  function Annotation(l: Link): string
  {
    l.text + " (" + l.url + ")"
  }

  /** One iteration of the link loop. */
  function ApplyLink(text: string, l: Link): string
  {
    if IsBlankLinkText(l.text) then text else ReplaceAll(text, l.text, Annotation(l))
  }

  /** The link loop: links are applied in list order, each to the result of the previous ones. */
  function ApplyLinks(text: string, links: seq<Link>): string
    decreases |links|
  {
    if |links| == 0 then text else ApplyLinks(ApplyLink(text, links[0]), links[1..])
  }

  /** Links that are blank or whose text does not occur (after the earlier links) change nothing. */
  lemma {:induction false} ApplyLinksIdentity(text: string, links: seq<Link>)
    requires forall i | 0 <= i < |links| :: IsBlankLinkText(links[i].text) || !Occurs(text, links[i].text)
    ensures ApplyLinks(text, links) == text
  {
    if |links| > 0 {
      var l := links[0];
      if !IsBlankLinkText(l.text) {
        ReplaceAllAbsent(text, l.text, Annotation(l));
      }
      ApplyLinksIdentity(text, links[1..]);
    }
  }

  /** A single link annotates its first occurrence and then every later one, left to right. */
  lemma ApplyLinkAnnotatesFirst(pre: string, l: Link, rest: string)
    requires !IsBlankLinkText(l.text)
    requires forall i | 0 <= i < |pre| :: !OccursAt(pre + l.text + rest, l.text, i)
    ensures ApplyLinks(pre + l.text + rest, [l]) == pre + Annotation(l) + ReplaceAll(rest, l.text, Annotation(l))
  {
    ReplaceAllFirst(pre, l.text, Annotation(l), rest);
  }

  /** `process_links_in_text` on an item that has `text` (the only way it is called). */
  function ProcessLinksInText(it: Item): (r: Item)
    requires it.text.Some?
    ensures r.links.None? && r.text.Some?
    ensures it.links.Some? ==> r.text == Some(ApplyLinks(it.text.value, it.links.value))
    ensures r.(text := it.text, links := it.links) == it
    ensures it.links.None? ==> r == it
  {
    match it.links
    case None => it
    case Some(ls) => it.(text := Some(ApplyLinks(it.text.value, ls)), links := None)
  }

  /** Deep property: no dict reachable through `content`/`items` has both `text` and `links`. */
  predicate LinksResolved(it: Item)
    decreases it
  {
    && (it.text.Some? ==> it.links.None?)
    && (it.content.Present? ==> AllLinksResolved(it.content.list))
    && (it.items.Present? ==> AllLinksResolved(it.items.list))
  }

  predicate AllLinksResolved(items: seq<Item>)
    decreases items
  {
    forall i | 0 <= i < |items| :: LinksResolved(items[i])
  }

  /** One dict of `process_content`: its own links, then its `content`, then its `items`. */
  function ProcessItem(it: Item): (r: Item)
    decreases it
    ensures LinksResolved(r)
    ensures it.text.None? ==> r.links == it.links && r.text == it.text
    ensures it.text.Some? ==> r.links.None?
    ensures it.text.Some? ==>
      r.text == Some(if it.links.Some? then ApplyLinks(it.text.value, it.links.value) else it.text.value)
    ensures r.content.Present? <==> it.content.Present?
    ensures it.content.Present? ==> r.content.list == ProcessContent(it.content.list)
    ensures r.items.Present? <==> it.items.Present?
    ensures it.items.Present? ==> r.items.list == ProcessContent(it.items.list)
    ensures r.(text := it.text, links := it.links, content := it.content, items := it.items) == it
  {
    var a := if it.text.Some? then ProcessLinksInText(it) else it;
    var b := match it.content
      case Absent => a
      case Present(l) => a.(content := Present(ProcessContent(l)));
    match it.items
    case Absent => b
    case Present(l) => b.(items := Present(ProcessContent(l)))
  }

  /** `process_content`: every dict of the list, in place and in order. */
  function ProcessContent(items: seq<Item>): (r: seq<Item>)
    decreases items
    ensures |r| == |items|
    ensures forall i | 0 <= i < |items| :: r[i] == ProcessItem(items[i])
    ensures AllLinksResolved(r)
  {
    if |items| == 0 then [] else [ProcessItem(items[0])] + ProcessContent(items[1..])
  }

  /** A dict whose links are already resolved is left as it is. */
  lemma {:induction false} ResolvedItemIsFixpoint(it: Item)
    requires LinksResolved(it)
    ensures ProcessItem(it) == it
    decreases it
  {
    if it.content.Present? {
      ResolvedIsFixpoint(it.content.list);
    }
    if it.items.Present? {
      ResolvedIsFixpoint(it.items.list);
    }
  }

  lemma {:induction false} ResolvedIsFixpoint(items: seq<Item>)
    requires AllLinksResolved(items)
    ensures ProcessContent(items) == items
    decreases items
  {
    if |items| > 0 {
      ResolvedItemIsFixpoint(items[0]);
      ResolvedIsFixpoint(items[1..]);
    }
  }

  /** Running the pass twice is the same as running it once. */
  lemma ProcessContentIdempotent(items: seq<Item>)
    ensures ProcessContent(ProcessContent(items)) == ProcessContent(items)
  {
    ResolvedIsFixpoint(ProcessContent(items));
  }
}

=== FILE: lists.dfy ===
/** `concat_list_items_to_previous_block`: every ordered/unordered list is removed and its item
    texts, joined by newlines, are appended to the block kept just before it. */
module ListFolding {
  import opened Wrappers
  import opened Strings
  import opened JsonDoc

  /** The `text` of each list entry (present in well-formed lists). */
  function EntryTexts(entries: seq<Item>): (r: seq<string>)
    ensures |r| == |entries|
  {
    if |entries| == 0 then [] else [entries[0].text.GetOr("")] + EntryTexts(entries[1..])
  }

  /** The list's entries joined by newlines; ordered and unordered lists render alike. */
  function ListText(it: Item): string
  {
    Join(EntryTexts(ListOr(it.items)), "\n")
  }

  /** Position of the first paragraph, or `|kids|` when there is none. */
  function FirstParagraph(kids: seq<Item>): (k: nat)
    ensures k <= |kids|
    ensures forall j | 0 <= j < k :: !IsParagraph(kids[j])
    ensures k < |kids| ==> IsParagraph(kids[k])
  {
    if |kids| == 0 || IsParagraph(kids[0]) then 0 else 1 + FirstParagraph(kids[1..])
  }

  /** `block['text'] += "\n" + t`. */
  function AppendText(it: Item, t: string): (r: Item)
    ensures r.text == Some(it.text.GetOr("") + "\n" + t)
    ensures r.(text := it.text) == it
  {
    it.(text := Some(it.text.GetOr("") + "\n" + t))
  }

  /** Where a list's text goes, in order of preference: the preceding paragraph itself; else the
      first paragraph inside the preceding block's `content`; else a new paragraph appended to
      that `content`, which is created when missing. */
  function Attach(prev: Item, t: string): (r: Item)
    ensures r.kind == prev.kind
    ensures IsParagraph(prev) ==> r == AppendText(prev, t)
    ensures !IsParagraph(prev) ==> r.content.Present? && r.(content := prev.content) == prev
    ensures !IsParagraph(prev) && (exists j | 0 <= j < |ListOr(prev.content)| :: IsParagraph(ListOr(prev.content)[j])) ==>
      var kids := ListOr(prev.content);
      exists k | 0 <= k < |kids| ::
        && IsParagraph(kids[k])
        && (forall j | 0 <= j < k :: !IsParagraph(kids[j]))
        && r.content.list == kids[k := AppendText(kids[k], t)]
    ensures !IsParagraph(prev) && (forall j | 0 <= j < |ListOr(prev.content)| :: !IsParagraph(ListOr(prev.content)[j])) ==>
      r.content.list == ListOr(prev.content) + [ParagraphItem(t)]
  {
    if IsParagraph(prev) then AppendText(prev, t)
    else
      var kids := ListOr(prev.content);
      var k := FirstParagraph(kids);
      if k < |kids| then prev.(content := Present(kids[k := AppendText(kids[k], t)]))
      else prev.(content := Present(kids + [ParagraphItem(t)]))
  }

  /** One iteration of the loop: a list is folded into the last kept dict when that dict is
      truthy and dropped otherwise; any other dict is kept with its `content` folded. */
  function Step(acc: seq<Item>, it: Item): (r: seq<Item>)
    requires WellFormed(it)
    decreases it, 1
    ensures AllNoLists(acc) ==> AllNoLists(r)
    ensures Kinds(r) == Kinds(acc) + (if IsList(it) then [] else [it.kind])
  {
    if IsList(it) then
      if |acc| > 0 && Truthy(acc[|acc| - 1]) then
        var r := acc[..|acc| - 1] + [Attach(acc[|acc| - 1], ListText(it))];
        assert AllNoLists(acc) ==> AllNoLists(r) by {
          if AllNoLists(acc) {
            AttachKeepsNoLists(acc[|acc| - 1], ListText(it));
          }
        }
        r
      else acc
    else acc + [FoldInside(it)]
  }

  /** The loop of the pass: `acc` is `new_content` so far and `items` what is still to be read. */
  function Fold(acc: seq<Item>, items: seq<Item>): (r: seq<Item>)
    requires AllWellFormed(items)
    decreases items, 2
    ensures AllNoLists(acc) ==> AllNoLists(r)
  {
    if |items| == 0 then acc
    else Fold(Step(acc, items[0]), items[1..])
  }

  /** The dicts kept by the loop are the non-list ones, in order and with their types. */
  lemma {:induction false} FoldKinds(acc: seq<Item>, items: seq<Item>)
    requires AllWellFormed(items)
    ensures Kinds(Fold(acc, items)) == Kinds(acc) + Kinds(NonLists(items))
    decreases |items|
  {
    if |items| > 0 {
      var x, rest := items[0], items[1..];
      var keep := if IsList(x) then [] else [x];
      FoldCons(acc, items);
      FoldKinds(Step(acc, x), rest);
      StepKinds(acc, x);
      NonListsCons(items);
      KindsAppend(keep, NonLists(rest));
      Regroup(Kinds(Fold(acc, items)), Kinds(Step(acc, x)), Kinds(acc), Kinds(keep),
              Kinds(NonLists(rest)), Kinds(NonLists(items)));
    }
  }

  /** The sequence algebra of one `FoldKinds` step, kept apart from the dicts. */
  lemma Regroup<T>(folded: seq<T>, stepped: seq<T>, before: seq<T>, kept: seq<T>, later: seq<T>, all: seq<T>)
    requires folded == stepped + later && stepped == before + kept && all == kept + later
    ensures folded == before + all
  {
  }

  /** The loop over a non-empty list is one iteration, then the loop over the rest. */
  lemma FoldCons(acc: seq<Item>, items: seq<Item>)
    requires |items| > 0 && AllWellFormed(items)
    ensures AllWellFormed(items[1..]) && WellFormed(items[0])
    ensures Fold(acc, items) == Fold(Step(acc, items[0]), items[1..])
  {
  }

  lemma NonListsCons(items: seq<Item>)
    requires |items| > 0
    ensures NonLists(items) == (if IsList(items[0]) then [] else [items[0]]) + NonLists(items[1..])
  {
  }

  /** One iteration appends the type of the dict it keeps, if any. */
  lemma StepKinds(acc: seq<Item>, x: Item)
    requires WellFormed(x)
    ensures Kinds(Step(acc, x)) == Kinds(acc) + Kinds(if IsList(x) then [] else [x])
  {
    KindsOfKept(x);
  }

  lemma KindsOfKept(x: Item)
    ensures Kinds(if IsList(x) then [] else [x]) == (if IsList(x) then [] else [x.kind])
  {
    if !IsList(x) {
      assert Kinds([x])[0] == x.kind;
    }
  }

  lemma KindsAppend(a: seq<Item>, b: seq<Item>)
    ensures Kinds(a + b) == Kinds(a) + Kinds(b)
  {
    assert forall i | 0 <= i < |a + b| :: Kinds(a + b)[i] == (Kinds(a) + Kinds(b))[i];
  }

  /** A kept dict with its `content` folded recursively. */
  function FoldInside(it: Item): (r: Item)
    requires WellFormed(it) && !IsList(it)
    decreases it, 0
    ensures NoListsDeep(r)
    ensures r.kind == it.kind && r.(content := it.content) == it
  {
    match it.content
    case Absent => it
    case Present(l) => it.(content := Present(Fold([], l)))
  }

  /** The pass. */
  function ConcatListItemsToPreviousBlock(items: seq<Item>): (r: seq<Item>)
    requires AllWellFormed(items)
    ensures AllNoLists(r)
    ensures Kinds(r) == Kinds(NonLists(items))
  {
    FoldKinds([], items);
    Fold([], items)
  }

  /** The dicts that are not lists, in order. */
  function NonLists(items: seq<Item>): seq<Item>
  {
    if |items| == 0 then []
    else if IsList(items[0]) then NonLists(items[1..])
    else [items[0]] + NonLists(items[1..])
  }

  /** Deep property: no list dict anywhere reachable through `content`. */
  predicate NoListsDeep(it: Item)
    decreases it
  {
    !IsList(it) && (it.content.Present? ==> AllNoLists(it.content.list))
  }

  predicate AllNoLists(items: seq<Item>)
    decreases items
  {
    forall i | 0 <= i < |items| :: NoListsDeep(items[i])
  }

  lemma AttachKeepsNoLists(prev: Item, t: string)
    requires NoListsDeep(prev)
    ensures NoListsDeep(Attach(prev, t))
  {
    if !IsParagraph(prev) {
      var kids := ListOr(prev.content);
      var k := FirstParagraph(kids);
      if k < |kids| {
        assert NoListsDeep(kids[k]);
        assert NoListsDeep(AppendText(kids[k], t));
      } else {
        assert NoListsDeep(ParagraphItem(t));
      }
    }
  }

  /** A list with no kept block before it is dropped without trace. */
  lemma LeadingListDropped(items: seq<Item>)
    requires AllWellFormed(items) && |items| > 0 && IsList(items[0])
    ensures ConcatListItemsToPreviousBlock(items) == ConcatListItemsToPreviousBlock(items[1..])
  {
  }

  /** The loop reads one more dict: folding `a + [x]` is folding `a` and then taking one step. */
  lemma {:induction false} FoldSnoc(acc: seq<Item>, a: seq<Item>, x: Item)
    requires AllWellFormed(a) && WellFormed(x)
    ensures AllWellFormed(a + [x])
    ensures Fold(acc, a + [x]) == Step(Fold(acc, a), x)
    decreases |a|
  {
    assert forall i | 0 <= i < |a + [x]| :: (a + [x])[i] == if i < |a| then a[i] else x;
    if |a| == 0 {
      assert a + [x] == [x] && [x][1..] == [];
    } else {
      assert (a + [x])[0] == a[0] && (a + [x])[1..] == a[1..] + [x];
      FoldSnoc(Step(acc, a[0]), a[1..], x);
    }
  }

  /** A list at the end of the input goes into the last dict kept so far when that dict is
      truthy; otherwise it leaves the result as it was. */
  lemma ListFoldedIntoLast(items: seq<Item>, l: Item)
    requires AllWellFormed(items) && WellFormed(l) && IsList(l)
    ensures AllWellFormed(items + [l])
    ensures
      var r := ConcatListItemsToPreviousBlock(items);
      ConcatListItemsToPreviousBlock(items + [l]) ==
        if |r| > 0 && Truthy(r[|r| - 1]) then r[..|r| - 1] + [Attach(r[|r| - 1], ListText(l))] else r
  {
    FoldSnoc([], items, l);
  }

  /** Any other dict at the end of the input is kept at the end, with its `content` folded. */
  lemma BlockKeptAtEnd(items: seq<Item>, x: Item)
    requires AllWellFormed(items) && WellFormed(x) && !IsList(x)
    ensures AllWellFormed(items + [x])
    ensures ConcatListItemsToPreviousBlock(items + [x]) == ConcatListItemsToPreviousBlock(items) + [FoldInside(x)]
  {
    FoldSnoc([], items, x);
  }

  /** A list right after a kept block ends up inside that block: the result has one dict fewer
      than the input, and the block's text is extended according to `Attach`. */
  lemma ListAfterBlock(prev: Item, x: Item)
    requires WellFormed(prev) && WellFormed(x) && !IsList(prev) && IsList(x)
    requires Truthy(FoldInside(prev))
    ensures ConcatListItemsToPreviousBlock([prev, x]) == [Attach(FoldInside(prev), ListText(x))]
  {
    var e: seq<Item> := [];
    BlockKeptAtEnd(e, prev);
    assert e + [prev] == [prev] && [prev] + [x] == [prev, x];
    assert ConcatListItemsToPreviousBlock(e) == [];
    ListFoldedIntoLast([prev], x);
    assert [FoldInside(prev)][..0] == [];
  }
}

=== FILE: paragraphs.dfy ===
/** `concat_consecutive_paragraphs`: every maximal run of adjacent paragraphs becomes one
    `{"type": "paragraph", "text": ...}` whose text is the run's texts joined by a newline. */
module ParagraphMerge {
  import opened Wrappers
  import opened Strings
  import opened JsonDoc

  /** How many paragraphs stand at the front of the list. */
  function RunLength(items: seq<Item>): (n: nat)
    ensures n <= |items|
    ensures forall i | 0 <= i < n :: IsParagraph(items[i])
    ensures n < |items| ==> !IsParagraph(items[n])
  {
    if |items| == 0 || !IsParagraph(items[0]) then 0 else 1 + RunLength(items[1..])
  }

  /** The `text` of each dict; well-formed paragraphs always have one, so the default is never used. */
  function Texts(items: seq<Item>): (r: seq<string>)
    ensures |r| == |items|
    ensures forall i | 0 <= i < |items| :: r[i] == items[i].text.GetOr("")
  {
    if |items| == 0 then [] else [items[0].text.GetOr("")] + Texts(items[1..])
  }

  /** A non-paragraph dict with its `content` merged recursively. */
  function MergeInside(it: Item): (r: Item)
    requires WellFormed(it) && !IsParagraph(it)
    decreases it
    ensures WellFormed(r) && Merged(r)
    ensures r.kind == it.kind && r.content.Present? == it.content.Present?
  {
    match it.content
    case Absent => it
    case Present(l) => it.(content := Present(ConcatConsecutiveParagraphs(l)))
  }

  /** The pass itself. */
  function ConcatConsecutiveParagraphs(items: seq<Item>): (r: seq<Item>)
    requires AllWellFormed(items)
    decreases items
    ensures AllWellFormed(r) && AllMerged(r)
    ensures |r| <= |items|
    ensures |r| > 0 && |items| > 0 ==> (IsParagraph(r[0]) <==> IsParagraph(items[0]))
    ensures |r| == 0 <==> |items| == 0
  {
    if |items| == 0 then []
    else if IsParagraph(items[0]) then
      var n := RunLength(items);
      [ParagraphItem(Join(Texts(items[..n]), "\n"))] + ConcatConsecutiveParagraphs(items[n..])
    else
      [MergeInside(items[0])] + ConcatConsecutiveParagraphs(items[1..])
  }

  /** Deep property: no two adjacent paragraphs in any list reachable through `content` of a
      non-paragraph, and every paragraph is the bare `{type, text}` dict. */
  predicate Merged(it: Item)
    decreases it
  {
    if IsParagraph(it) then it.text.Some? && it == ParagraphItem(it.text.value)
    else it.content.Present? ==> AllMerged(it.content.list)
  }

  predicate AllMerged(items: seq<Item>)
    decreases items
  {
    && (forall i | 0 <= i < |items| :: Merged(items[i]))
    && (forall i | 0 <= i < |items| - 1 :: !(IsParagraph(items[i]) && IsParagraph(items[i + 1])))
  }

  /** The non-paragraph dicts of a list, in order. */
  function NonParagraphs(items: seq<Item>): seq<Item>
  {
    if |items| == 0 then []
    else if IsParagraph(items[0]) then NonParagraphs(items[1..])
    else [items[0]] + NonParagraphs(items[1..])
  }

  /** The texts of the paragraphs of a list, in order. */
  function ParagraphTexts(items: seq<Item>): seq<string>
  {
    if |items| == 0 then []
    else if IsParagraph(items[0]) then [items[0].text.GetOr("")] + ParagraphTexts(items[1..])
    else ParagraphTexts(items[1..])
  }

  /** `MergeInside` applied to each dict. */
  function MapMergeInside(items: seq<Item>): (r: seq<Item>)
    requires AllWellFormed(items)
    requires forall i | 0 <= i < |items| :: !IsParagraph(items[i])
    ensures |r| == |items|
  {
    if |items| == 0 then [] else [MergeInside(items[0])] + MapMergeInside(items[1..])
  }

  lemma {:induction false} NonParagraphsOfRun(items: seq<Item>, n: nat)
    requires n <= |items|
    requires forall i | 0 <= i < n :: IsParagraph(items[i])
    ensures NonParagraphs(items) == NonParagraphs(items[n..])
  {
    if n > 0 {
      assert items[1..][n - 1..] == items[n..];
      NonParagraphsOfRun(items[1..], n - 1);
    }
  }

  lemma {:induction false} ParagraphTextsOfRun(items: seq<Item>, n: nat)
    requires n <= |items|
    requires forall i | 0 <= i < n :: IsParagraph(items[i])
    ensures ParagraphTexts(items) == Texts(items[..n]) + ParagraphTexts(items[n..])
  {
    assert forall i | 0 <= i < n :: items[..n][i] == items[i];
    assert forall i | 0 <= i < |items| - n :: items[n..][i] == items[i + n];
    if n > 0 {
      assert items[1..][n - 1..] == items[n..];
      assert items[1..][..n - 1] == items[1..n];
      ParagraphTextsOfRun(items[1..], n - 1);
      assert Texts(items[..n]) == [items[0].text.GetOr("")] + Texts(items[1..n]);
    } else {
      assert items[n..] == items;
    }
  }

  /** The non-paragraph dicts keep their order and number; only their `content` is merged. */
  lemma {:induction false} NonParagraphsPreserved(items: seq<Item>)
    requires AllWellFormed(items)
    ensures AllWellFormed(NonParagraphs(items))
    ensures forall i | 0 <= i < |NonParagraphs(items)| :: !IsParagraph(NonParagraphs(items)[i])
    ensures NonParagraphs(ConcatConsecutiveParagraphs(items)) == MapMergeInside(NonParagraphs(items))
    decreases |items|
  {
    if |items| == 0 {
    } else if IsParagraph(items[0]) {
      var n := RunLength(items);
      NonParagraphsOfRun(items, n);
      assert forall i | 0 <= i < |items| - n :: items[n..][i] == items[i + n];
      NonParagraphsPreserved(items[n..]);
    } else {
      NonParagraphsPreserved(items[1..]);
    }
  }

  /** No paragraph text is lost or reordered: joined by newlines, the paragraph texts before and
      after the pass are the same string, and there are paragraphs after it exactly when there
      were before. */
  lemma {:induction false} ParagraphTextsPreserved(items: seq<Item>)
    requires AllWellFormed(items)
    ensures |ParagraphTexts(ConcatConsecutiveParagraphs(items))| == 0 <==> |ParagraphTexts(items)| == 0
    ensures Join(ParagraphTexts(ConcatConsecutiveParagraphs(items)), "\n") == Join(ParagraphTexts(items), "\n")
    decreases |items|
  {
    if |items| == 0 {
    } else if IsParagraph(items[0]) {
      var n := RunLength(items);
      var rest := items[n..];
      ParagraphTextsOfRun(items, n);
      ParagraphTextsPreserved(rest);
      var run := Texts(items[..n]);
      var r := ConcatConsecutiveParagraphs(items);
      assert r[1..] == ConcatConsecutiveParagraphs(rest);
      assert ParagraphTexts(r) == [Join(run, "\n")] + ParagraphTexts(ConcatConsecutiveParagraphs(rest));
      if |ParagraphTexts(rest)| > 0 {
        JoinAppend(run, ParagraphTexts(rest), "\n");
        JoinAppend([Join(run, "\n")], ParagraphTexts(ConcatConsecutiveParagraphs(rest)), "\n");
      } else {
        assert ParagraphTexts(items) == run;
      }
    } else {
      ParagraphTextsPreserved(items[1..]);
    }
  }

  /** A dict that is already merged is left as it is. */
  lemma {:induction false} MergedItemIsFixpoint(it: Item)
    requires WellFormed(it) && Merged(it) && !IsParagraph(it)
    ensures MergeInside(it) == it
    decreases it
  {
    if it.content.Present? {
      MergedIsFixpoint(it.content.list);
    }
  }

  lemma {:induction false} MergedIsFixpoint(items: seq<Item>)
    requires AllWellFormed(items) && AllMerged(items)
    ensures ConcatConsecutiveParagraphs(items) == items
    decreases items
  {
    if |items| == 0 {
    } else if IsParagraph(items[0]) {
      var n := RunLength(items);
      if |items| > 1 {
        assert !(IsParagraph(items[0]) && IsParagraph(items[1]));
      }
      assert n == 1;
      assert items[..1] == [items[0]];
      assert Join(Texts(items[..1]), "\n") == items[0].text.value;
      MergedIsFixpoint(items[1..]);
    } else {
      MergedItemIsFixpoint(items[0]);
      MergedIsFixpoint(items[1..]);
    }
  }

  /** Running the pass twice is the same as running it once. */
  lemma ConcatConsecutiveParagraphsIdempotent(items: seq<Item>)
    requires AllWellFormed(items)
    ensures ConcatConsecutiveParagraphs(ConcatConsecutiveParagraphs(items)) == ConcatConsecutiveParagraphs(items)
  {
    MergedIsFixpoint(ConcatConsecutiveParagraphs(items));
  }

  /** A run of paragraphs followed by a non-paragraph (or by nothing) has exactly the run's length. */
  lemma {:induction false} RunLengthOf(run: seq<Item>, tail: seq<Item>)
    requires forall i | 0 <= i < |run| :: IsParagraph(run[i])
    requires |tail| > 0 ==> !IsParagraph(tail[0])
    ensures RunLength(run + tail) == |run|
  {
    if |run| > 0 {
      assert (run + tail)[0] == run[0] && (run + tail)[1..] == run[1..] + tail;
      RunLengthOf(run[1..], tail);
    } else {
      assert run + tail == tail;
    }
  }

  /** Each maximal run stays in place: the run becomes one paragraph holding its texts joined by
      newlines, directly followed by the non-paragraph that ended it. */
  lemma RunMergedInPlace(run: seq<Item>, x: Item, rest: seq<Item>)
    requires |run| > 0 && forall i | 0 <= i < |run| :: IsParagraph(run[i])
    requires AllWellFormed(run) && WellFormed(x) && !IsParagraph(x) && AllWellFormed(rest)
    ensures AllWellFormed(run + [x] + rest)
    ensures ConcatConsecutiveParagraphs(run + [x] + rest) ==
      [ParagraphItem(Join(Texts(run), "\n")), MergeInside(x)] + ConcatConsecutiveParagraphs(rest)
  {
    var items := run + [x] + rest;
    assert forall i | 0 <= i < |items| :: items[i] == if i < |run| then run[i] else if i == |run| then x else rest[i - |run| - 1];
    assert items == run + ([x] + rest);
    RunLengthOf(run, [x] + rest);
    var n := |run|;
    assert items[..n] == run;
    assert items[n..] == [x] + rest;
    assert ([x] + rest)[0] == x && ([x] + rest)[1..] == rest;
  }

  /** A run that ends the list becomes its last dict. */
  lemma RunMergedAtEnd(run: seq<Item>)
    requires |run| > 0 && forall i | 0 <= i < |run| :: IsParagraph(run[i])
    requires AllWellFormed(run)
    ensures ConcatConsecutiveParagraphs(run) == [ParagraphItem(Join(Texts(run), "\n"))]
  {
    var e: seq<Item> := [];
    RunLengthOf(run, e);
    assert run + e == run;
    assert run[..|run|] == run && run[|run|..] == [];
  }

  /** A non-paragraph at the front is kept at the front with its `content` merged. */
  lemma NonParagraphInPlace(x: Item, rest: seq<Item>)
    requires WellFormed(x) && !IsParagraph(x) && AllWellFormed(rest)
    ensures AllWellFormed([x] + rest)
    ensures ConcatConsecutiveParagraphs([x] + rest) == [MergeInside(x)] + ConcatConsecutiveParagraphs(rest)
  {
    assert forall i | 0 <= i < |[x] + rest| :: ([x] + rest)[i] == if i == 0 then x else rest[i - 1];
    assert ([x] + rest)[1..] == rest;
  }
}

=== FILE: preprocess.dfy ===
/** `preprocess_text`, applied to every chunk: NUL characters become spaces, every whitespace run
    becomes one space, the ends are stripped, and every structural marker becomes a newline. */
module Preprocess {
  import opened Wrappers
  import opened Strings

  /** The markers the flattening writes, in the order the alternation tries them. */
  const Markers: seq<string> := ["h1h1h1", "h2h2h2", "h3h3h3", "h4h4h4", "h5h5h5",
                                 "---End of row---", "tabletabletable", "paragraphparagraphparagraph"]

  /** No marker is empty and none contains a newline. */
  lemma MarkersShape()
    ensures |Markers| == 8
    ensures forall m | 0 <= m < |Markers| :: |Markers[m]| > 0 && '\n' !in Markers[m]
  {
  }

  // ---------------------------------------------------------------------------------------
  // `preprocess_text`: NUL to space.

  function ReplaceNul(s: string): (r: string)
    ensures |r| == |s|
    ensures '\0' !in r
    ensures forall i | 0 <= i < |s| && s[i] != '\0' :: r[i] == s[i]
  {
    seq(|s|, i requires 0 <= i < |s| => if s[i] == '\0' then ' ' else s[i])
  }

  // ---------------------------------------------------------------------------------------
  // `preprocess_text`: collapse whitespace runs, then strip.

  /** The characters that are not whitespace, in order. */
  function NonSpaces(s: string): string
  {
    if |s| == 0 then [] else (if IsSpace(s[0]) then [] else [s[0]]) + NonSpaces(s[1..])
  }

  /** No two adjacent whitespace characters. */
  predicate NoDoubleSpace(s: string)
  {
    forall i | 0 <= i < |s| - 1 :: !(IsSpace(s[i]) && IsSpace(s[i + 1]))
  }

  /** The first index that is not whitespace, `|s|` if none. */
  function SkipSpaces(s: string, i: nat): (j: nat)
    requires i <= |s|
    ensures i <= j <= |s|
    ensures forall k | i <= k < j :: IsSpace(s[k])
    ensures j < |s| ==> !IsSpace(s[j])
    decreases |s| - i
  {
    if i == |s| || !IsSpace(s[i]) then i else SkipSpaces(s, i + 1)
  }

  /** `re.sub(r'\s+', ' ', s)`: every maximal run of whitespace becomes a single space. */
  function CollapseSpaces(s: string): (r: string)
    ensures |r| <= |s|
    ensures |s| > 0 ==> |r| > 0 && (IsSpace(r[0]) <==> IsSpace(s[0]))
    ensures |s| > 0 && !IsSpace(s[0]) ==> r[0] == s[0]
    ensures NoDoubleSpace(r)
    ensures forall i | 0 <= i < |r| && IsSpace(r[i]) :: r[i] == ' '
    decreases |s|
  {
    if |s| == 0 then []
    else if IsSpace(s[0]) then
      var j := SkipSpaces(s, 0);
      var rest := CollapseSpaces(s[j..]);
      assert IsSpace(' ');
      [' '] + rest
    else
      [s[0]] + CollapseSpaces(s[1..])
  }

  lemma {:induction false} NonSpacesOfSpaces(s: string, j: nat)
    requires j <= |s|
    requires forall k | 0 <= k < j :: IsSpace(s[k])
    ensures NonSpaces(s) == NonSpaces(s[j..])
  {
    if j > 0 {
      assert s[1..][j - 1..] == s[j..];
      NonSpacesOfSpaces(s[1..], j - 1);
    }
  }

  /** Collapsing keeps every non-whitespace character, in order. */
  lemma {:induction false} CollapseKeepsNonSpaces(s: string)
    ensures NonSpaces(CollapseSpaces(s)) == NonSpaces(s)
    decreases |s|
  {
    if |s| > 0 {
      if IsSpace(s[0]) {
        var j := SkipSpaces(s, 0);
        NonSpacesOfSpaces(s, j);
        CollapseKeepsNonSpaces(s[j..]);
        assert IsSpace(' ');
        assert ([' '] + CollapseSpaces(s[j..]))[1..] == CollapseSpaces(s[j..]);
      } else {
        CollapseKeepsNonSpaces(s[1..]);
        assert ([s[0]] + CollapseSpaces(s[1..]))[1..] == CollapseSpaces(s[1..]);
      }
    }
  }

  /** Reference definition of `re.sub(r'\s+', ' ', s)`, one character at a time: a non-whitespace
      character is kept, and a whitespace character becomes a space unless the character before it
      was whitespace too (`afterSpace`). */
  function CollapseRef(s: string, afterSpace: bool): string
    decreases |s|
  {
    if |s| == 0 then []
    else if !IsSpace(s[0]) then [s[0]] + CollapseRef(s[1..], false)
    else if afterSpace then CollapseRef(s[1..], true)
    else [' '] + CollapseRef(s[1..], true)
  }

  /** After whitespace, the reference drops a further whitespace run entirely. */
  lemma {:induction false} RefSkipsRun(s: string, j: nat)
    requires j <= |s|
    requires forall k | 0 <= k < j :: IsSpace(s[k])
    ensures CollapseRef(s, true) == CollapseRef(s[j..], true)
    decreases j
  {
    if j > 0 {
      assert s[1..][j - 1..] == s[j..];
      RefSkipsRun(s[1..], j - 1);
    }
  }

  /** Text that starts with a non-whitespace character collapses the same after either flag. */
  lemma RefFlag(s: string)
    requires |s| == 0 || !IsSpace(s[0])
    ensures CollapseRef(s, true) == CollapseRef(s, false)
  {
  }

  /** The run-skipping collapse agrees with the character-at-a-time reference. */
  lemma {:induction false} CollapseAgrees(s: string)
    ensures CollapseSpaces(s) == CollapseRef(s, false)
    decreases |s|
  {
    if |s| > 0 {
      if IsSpace(s[0]) {
        var j := SkipSpaces(s, 0);
        assert s[1..][j - 1..] == s[j..];
        RefSkipsRun(s[1..], j - 1);
        RefFlag(s[j..]);
        CollapseAgrees(s[j..]);
      } else {
        CollapseAgrees(s[1..]);
      }
    }
  }

  /** The last index past which everything is whitespace. */
  function TrimEnd(s: string, j: nat): (k: nat)
    requires j <= |s|
    ensures k <= j
    ensures forall i | k <= i < j :: IsSpace(s[i])
    ensures k > 0 ==> !IsSpace(s[k - 1])
  {
    if j == 0 || !IsSpace(s[j - 1]) then j else TrimEnd(s, j - 1)
  }

  /** `str.strip()`: the longest slice with no whitespace at either end. */
  function Strip(s: string): (r: string)
    ensures |r| > 0 ==> !IsSpace(r[0]) && !IsSpace(r[|r| - 1])
    ensures exists lo, hi | 0 <= lo <= hi <= |s| ::
      && r == s[lo..hi]
      && (forall k | 0 <= k < lo :: IsSpace(s[k]))
      && (forall k | hi <= k < |s| :: IsSpace(s[k]))
  {
    var lo := SkipSpaces(s, 0);
    var hi := if lo == |s| then lo else TrimEnd(s, |s|);
    assert lo < |s| ==> lo < hi;
    s[lo..hi]
  }

  /** The non-whitespace characters of a concatenation are those of its parts. */
  lemma {:induction false} NonSpacesAppend(a: string, b: string)
    ensures NonSpaces(a + b) == NonSpaces(a) + NonSpaces(b)
    decreases |a|
  {
    if |a| > 0 {
      assert (a + b)[0] == a[0] && (a + b)[1..] == a[1..] + b;
      NonSpacesAppend(a[1..], b);
      var h := if IsSpace(a[0]) then [] else [a[0]];
      assert NonSpaces(a) == h + NonSpaces(a[1..]);
    } else {
      assert a + b == b;
    }
  }

  /** Stripping removes whitespace only. */
  lemma StripKeepsNonSpaces(s: string)
    ensures NonSpaces(Strip(s)) == NonSpaces(s)
  {
    var lo, hi :| 0 <= lo <= hi <= |s| && Strip(s) == s[lo..hi]
      && (forall k | 0 <= k < lo :: IsSpace(s[k]))
      && (forall k | hi <= k < |s| :: IsSpace(s[k]));
    NonSpacesOfSpaces(s, lo);
    var tail := s[hi..];
    NonSpacesOfSpaces(tail, |tail|);
    assert tail[|tail|..] == [];
    assert s[lo..] == s[lo..hi] + tail;
    NonSpacesAppend(s[lo..hi], tail);
  }

  /** A slice keeps the absence of adjacent whitespace, of NUL and of whitespace other than a
      plain space. */
  lemma SliceKeepsSpacing(s: string, lo: nat, hi: nat)
    requires lo <= hi <= |s| && NoDoubleSpace(s)
    requires '\0' !in s
    requires forall i | 0 <= i < |s| && IsSpace(s[i]) :: s[i] == ' '
    ensures NoDoubleSpace(s[lo..hi])
    ensures '\0' !in s[lo..hi]
    ensures forall i | 0 <= i < |s[lo..hi]| && IsSpace(s[lo..hi][i]) :: s[lo..hi][i] == ' '
  {
    forall i | 0 <= i < hi - lo - 1
      ensures !(IsSpace(s[lo..hi][i]) && IsSpace(s[lo..hi][i + 1]))
    {
      assert s[lo..hi][i] == s[lo + i] && s[lo..hi][i + 1] == s[lo + i + 1];
    }
    assert forall i | 0 <= i < hi - lo :: s[lo..hi][i] == s[lo + i];
  }

  /** Whitespace collapsing of text without NUL leaves none. */
  lemma CollapseNoNul(s: string)
    requires '\0' !in s
    ensures '\0' !in CollapseSpaces(s)
  {
    assert !IsSpace('\0');
    CollapseChars(s);
  }

  /** `preprocess_text` up to the marker substitution: NUL replaced, whitespace collapsed, stripped. */
  function Normalise(s: string): (r: string)
    ensures |r| > 0 ==> !IsSpace(r[0]) && !IsSpace(r[|r| - 1])
    ensures NoDoubleSpace(r)
    ensures '\0' !in r
    ensures forall i | 0 <= i < |r| && IsSpace(r[i]) :: r[i] == ' '
    ensures NonSpaces(r) == NonSpaces(ReplaceNul(s))
  {
    var c := CollapseSpaces(ReplaceNul(s));
    var r := Strip(c);
    var lo, hi :| 0 <= lo <= hi <= |c| && r == c[lo..hi];
    CollapseNoNul(ReplaceNul(s));
    SliceKeepsSpacing(c, lo, hi);
    CollapseKeepsNonSpaces(ReplaceNul(s));
    StripKeepsNonSpaces(c);
    r
  }

  /** Collapsing adds no character other than a space. */
  lemma {:induction false} CollapseChars(s: string)
    ensures forall i | 0 <= i < |CollapseSpaces(s)| :: CollapseSpaces(s)[i] == ' ' || CollapseSpaces(s)[i] in s
    decreases |s|
  {
    if |s| > 0 {
      if IsSpace(s[0]) {
        var j := SkipSpaces(s, 0);
        CollapseChars(s[j..]);
      } else {
        CollapseChars(s[1..]);
      }
    }
  }

  // ---------------------------------------------------------------------------------------
  // `preprocess_text`: markers to newlines.

  /** The first marker, in list order, that `s` starts with. */
  function MarkerAt(s: string): (r: Option<nat>)
    ensures r.Some? ==> r.value < |Markers| && Markers[r.value] <= s
    ensures r.Some? ==> forall m | 0 <= m < r.value :: !(Markers[m] <= s)
    ensures r.None? ==> forall m | 0 <= m < |Markers| :: !(Markers[m] <= s)
  {
    FirstMarkerFrom(s, 0)
  }

  function FirstMarkerFrom(s: string, m: nat): (r: Option<nat>)
    requires m <= |Markers|
    ensures r.Some? ==> m <= r.value < |Markers| && Markers[r.value] <= s
    ensures r.Some? ==> forall k | m <= k < r.value :: !(Markers[k] <= s)
    ensures r.None? ==> forall k | m <= k < |Markers| :: !(Markers[k] <= s)
    decreases |Markers| - m
  {
    if m == |Markers| then None
    else if Markers[m] <= s then Some(m)
    else FirstMarkerFrom(s, m + 1)
  }

  /** `re.sub(pattern, '\n', s)`: scanning left to right, a marker starting here is replaced by a
      newline and scanning resumes after it; otherwise the character is kept. */
  function SubstituteMarkers(s: string): (r: string)
    decreases |s|
  {
    if |s| == 0 then []
    else match MarkerAt(s)
      case Some(m) =>
        MarkersShape();
        "\n" + SubstituteMarkers(s[|Markers[m]|..])
      case None => [s[0]] + SubstituteMarkers(s[1..])
  }

  /** What the substitution continues with after its first output character. */
  function SubstituteTail(s: string): (t: string)
    requires |s| > 0
    ensures |t| < |s|
  {
    match MarkerAt(s)
    case Some(m) => MarkersShape(); s[|Markers[m]|..]
    case None => s[1..]
  }

  lemma SubstituteUnfold(s: string)
    requires |s| > 0
    ensures |SubstituteMarkers(s)| > 0
    ensures SubstituteMarkers(s)[1..] == SubstituteMarkers(SubstituteTail(s))
    ensures SubstituteMarkers(s)[0] == (if MarkerAt(s).Some? then '\n' else s[0])
  {
  }

  /** A newline-free prefix of the output is a prefix of the input. */
  lemma {:induction false} NewlineFreePrefix(s: string, p: string)
    requires '\n' !in p && p <= SubstituteMarkers(s)
    ensures p <= s
    decreases |s|
  {
    if |p| > 0 && |s| > 0 {
      SubstituteUnfold(s);
      assert p[0] in p;
      assert MarkerAt(s).None?;
      NewlineFreePrefix(s[1..], p[1..]);
    }
  }

  /** The output never starts with a marker. */
  lemma MarkerNotAtStart(s: string, m: nat)
    requires m < |Markers|
    ensures !(Markers[m] <= SubstituteMarkers(s))
  {
    MarkersShape();
    var mk := Markers[m];
    if |s| > 0 && mk <= SubstituteMarkers(s) {
      SubstituteUnfold(s);
      assert mk[0] in mk;
      assert MarkerAt(s).None?;
      assert mk[1..] <= SubstituteMarkers(s[1..]);
      NewlineFreePrefix(s[1..], mk[1..]);
    }
  }

  /** No marker survives the substitution. */
  lemma {:induction false} NoMarkerRemains(s: string, m: nat)
    requires m < |Markers|
    ensures !Occurs(SubstituteMarkers(s), Markers[m])
    decreases |s|
  {
    var mk := Markers[m];
    var r := SubstituteMarkers(s);
    if |s| > 0 {
      SubstituteUnfold(s);
      var t := SubstituteTail(s);
      assert r[1..] == SubstituteMarkers(t);
      NoMarkerRemains(t, m);
      MarkerNotAtStart(s, m);
      forall i ensures !OccursAt(r, mk, i) {
        OccursAtStart(r, mk);
        OccursAtTail(r, mk, i - 1);
      }
    }
  }

  /** Text in which no marker occurs passes unchanged. */
  lemma {:induction false} NoMarkerIdentity(s: string)
    requires forall m | 0 <= m < |Markers| :: !Occurs(s, Markers[m])
    ensures SubstituteMarkers(s) == s
    decreases |s|
  {
    if |s| > 0 {
      forall m | 0 <= m < |Markers| ensures !(Markers[m] <= s) {
        OccursAtStart(s, Markers[m]);
      }
      forall m, i | 0 <= m < |Markers| ensures !OccursAt(s[1..], Markers[m], i) {
        OccursAtTail(s, Markers[m], i);
      }
      NoMarkerIdentity(s[1..]);
    }
  }

  /** A character of the output is a newline or a character of the input. */
  lemma {:induction false} SubstituteChars(s: string)
    ensures forall i | 0 <= i < |SubstituteMarkers(s)| :: SubstituteMarkers(s)[i] == '\n' || SubstituteMarkers(s)[i] in s
    decreases |s|
  {
    if |s| > 0 {
      match MarkerAt(s)
      case Some(m) =>
        MarkersShape();
        SubstituteChars(s[|Markers[m]|..]);
      case None =>
        SubstituteChars(s[1..]);
    }
  }

  /** `preprocess_text`. */
  function PreprocessText(s: string): (r: string)
    ensures '\0' !in r
    ensures forall m | 0 <= m < |Markers| :: !Occurs(r, Markers[m])
  {
    var t := Normalise(s);
    var r := SubstituteMarkers(t);
    SubstituteChars(t);
    forall m | 0 <= m < |Markers| ensures !Occurs(r, Markers[m]) {
      NoMarkerRemains(t, m);
    }
    r
  }

  // ---------------------------------------------------------------------------------------
  // `split_documents`: the chunk overlap.

  /** `int(a / 10)`: the quotient truncated toward zero. */
  function TruncDiv10(a: int): (q: int)
    ensures a >= 0 ==> 0 <= 10 * q <= a < 10 * q + 10
    ensures a < 0 ==> 10 * q - 10 < a <= 10 * q <= 0
  {
    if a >= 0 then a / 10 else -((-a) / 10)
  }

  function ChunkOverlap(chunkSize: int): int
  {
    TruncDiv10(chunkSize)
  }

  /** The overlap used by the chunking run, whose chunk size is 512. */
  lemma ChunkOverlapOf512()
    ensures ChunkOverlap(512) == 51
  {
  }
}

=== FILE: ranking.dfy ===
/** `MyExistingRetrievalPipeline`: a dense vector index whose ids map to the indexed rows, the
    texts the lexical scorer is built from, saving and loading all three, and the query that
    composes dense results. The embedder, the nearest-neighbour search and the lexical scores are
    parameters of the operations that use them. */
module Ranking {
  import opened Wrappers
  import opened Update
  import opened LexicalSort
  import SplitDocs

  /** A `collection_map` value: `{'doc_id': ..., 'content': ...}`. */
  datatype Entry = Entry(docId: string, content: string)

  /** The vector index, as the vectors added so far. `add_item` hands out the next position as id. */
  datatype VectorIndex<V> = VectorIndex(vectors: seq<V>)

  /** The lexical scorer, as the corpus it was built from. */
  datatype Bm25 = Bm25(corpus: seq<string>)

  datatype Pipeline<V> = Pipeline(
    index: VectorIndex<V>,
    collectionMap: map<nat, Entry>,
    bm25: Option<Bm25>,
    docTexts: seq<string>)

  /** The state `__init__` leaves. */
  function Fresh<V>(): (p: Pipeline<V>)
    ensures p.index.vectors == [] && p.collectionMap == map[] && p.bm25.None? && p.docTexts == []
  {
    Pipeline(VectorIndex([]), map[], None, [])
  }

  datatype PipelineError =
    | EmptyCorpus    // the lexical scorer divides by the corpus and vocabulary sizes
    | ZeroStep       // `range` with step 0
    | MissingFile(path: string)
    | MissingKey(id: nat)
    | NotReady       // `self.bm25` is still `None`

  /** The corpus yields no token. `BM25Okapi` is handed the texts themselves, so it takes each
      character of a text as a token; it divides by the number of texts and by the vocabulary size,
      which are zero for no text and for texts that are all empty. */
  predicate NoTokens(texts: seq<string>)
  {
    forall t | t in texts :: t == ""
  }

  /** Building the lexical scorer: a corpus without tokens raises `ZeroDivisionError`. */
  function BuildBm25(texts: seq<string>): (r: Result<Bm25, PipelineError>)
    ensures r.Failure? <==> forall i | 0 <= i < |texts| :: texts[i] == ""
    ensures r.Success? ==> r.value.corpus == texts
  {
    if NoTokens(texts) then
      assert forall i | 0 <= i < |texts| :: texts[i] in texts;
      Failure(EmptyCorpus)
    else
      var t :| t in texts && t != "";
      assert exists i | 0 <= i < |texts| :: texts[i] == t;
      Success(Bm25(texts))
  }

  // ---------------------------------------------------------------------------------------
  // index_documents.

  /** One row: embed its text, add the vector, record the row under the returned id. */
  function AddRow<V>(p: Pipeline<V>, embed: string -> V, row: Row): (r: Pipeline<V>)
    ensures r.index.vectors == p.index.vectors + [embed(row.fullContent)]
    ensures r.collectionMap == p.collectionMap[|p.index.vectors| := Entry(row.meta, row.fullContent)]
    ensures r.bm25 == p.bm25 && r.docTexts == p.docTexts
  {
    var id := |p.index.vectors|;
    p.(index := VectorIndex(p.index.vectors + [embed(row.fullContent)]),
       collectionMap := p.collectionMap[id := Entry(row.meta, row.fullContent)])
  }

  /** The rows one after the other. */
  function AddRows<V>(p: Pipeline<V>, embed: string -> V, rows: seq<Row>): (r: Pipeline<V>)
    ensures |r.index.vectors| == |p.index.vectors| + |rows|
    ensures r.bm25 == p.bm25 && r.docTexts == p.docTexts
    decreases |rows|
  {
    if |rows| == 0 then p else AddRows(AddRow(p, embed, rows[0]), embed, rows[1..])
  }

  lemma {:induction false} AddRowsAppend<V>(p: Pipeline<V>, embed: string -> V, a: seq<Row>, b: seq<Row>)
    ensures AddRows(p, embed, a + b) == AddRows(AddRows(p, embed, a), embed, b)
    decreases |a|
  {
    if |a| == 0 {
      assert a + b == b;
    } else {
      assert (a + b)[1..] == a[1..] + b;
      AddRowsAppend(AddRow(p, embed, a[0]), embed, a[1..], b);
    }
  }

  /** Each row lands under the id equal to the index size before it, and the other keys keep
      their entries. */
  lemma AddRowsMap<V>(p: Pipeline<V>, embed: string -> V, rows: seq<Row>)
    ensures forall id: nat | |p.index.vectors| <= id < |p.index.vectors| + |rows| ::
      && id in AddRows(p, embed, rows).collectionMap
      && AddRows(p, embed, rows).collectionMap[id] == Entry(rows[id - |p.index.vectors|].meta, rows[id - |p.index.vectors|].fullContent)
    ensures forall k: nat | !(|p.index.vectors| <= k < |p.index.vectors| + |rows|) ::
      (k in AddRows(p, embed, rows).collectionMap <==> k in p.collectionMap)
    ensures forall k: nat | !(|p.index.vectors| <= k < |p.index.vectors| + |rows|) && k in p.collectionMap ::
      AddRows(p, embed, rows).collectionMap[k] == p.collectionMap[k]
  {
    AddRowsNewKeys(p, embed, rows);
    AddRowsOldKeys(p, embed, rows);
  }

  lemma AddRowsNewKeys<V>(p: Pipeline<V>, embed: string -> V, rows: seq<Row>)
    ensures forall id: nat | |p.index.vectors| <= id < |p.index.vectors| + |rows| ::
      && id in AddRows(p, embed, rows).collectionMap
      && AddRows(p, embed, rows).collectionMap[id] == Entry(rows[id - |p.index.vectors|].meta, rows[id - |p.index.vectors|].fullContent)
  {
    forall id: nat | |p.index.vectors| <= id < |p.index.vectors| + |rows| {
      AddRowsNewKey(p, embed, rows, id);
    }
  }

  lemma AddRowsOldKeys<V>(p: Pipeline<V>, embed: string -> V, rows: seq<Row>)
    ensures forall k: nat | !(|p.index.vectors| <= k < |p.index.vectors| + |rows|) ::
      (k in AddRows(p, embed, rows).collectionMap <==> k in p.collectionMap)
    ensures forall k: nat | !(|p.index.vectors| <= k < |p.index.vectors| + |rows|) && k in p.collectionMap ::
      AddRows(p, embed, rows).collectionMap[k] == p.collectionMap[k]
  {
    forall k: nat | !(|p.index.vectors| <= k < |p.index.vectors| + |rows|) {
      AddRowsOldKey(p, embed, rows, k);
    }
  }

  /** Row `id - n` lands under `id`, where `n` is the index size before the rows. */
  lemma {:induction false} AddRowsNewKey<V>(p: Pipeline<V>, embed: string -> V, rows: seq<Row>, id: nat)
    requires |p.index.vectors| <= id < |p.index.vectors| + |rows|
    ensures id in AddRows(p, embed, rows).collectionMap
    ensures AddRows(p, embed, rows).collectionMap[id] == Entry(rows[id - |p.index.vectors|].meta, rows[id - |p.index.vectors|].fullContent)
    decreases |rows|
  {
    var q := AddRow(p, embed, rows[0]);
    var n := |p.index.vectors|;
    assert AddRows(p, embed, rows) == AddRows(q, embed, rows[1..]);
    if id > n {
      AddRowsNewKey(q, embed, rows[1..], id);
      assert rows[1..][id - (n + 1)] == rows[id - n];
    } else {
      AddRowsOldKey(q, embed, rows[1..], id);
    }
  }

  /** A key outside the new ids keeps its presence and its entry. */
  lemma {:induction false} AddRowsOldKey<V>(p: Pipeline<V>, embed: string -> V, rows: seq<Row>, k: nat)
    requires !(|p.index.vectors| <= k < |p.index.vectors| + |rows|)
    ensures k in AddRows(p, embed, rows).collectionMap <==> k in p.collectionMap
    ensures k in p.collectionMap ==> AddRows(p, embed, rows).collectionMap[k] == p.collectionMap[k]
    decreases |rows|
  {
    if |rows| > 0 {
      var q := AddRow(p, embed, rows[0]);
      assert AddRows(p, embed, rows) == AddRows(q, embed, rows[1..]);
      AddRowsOldKey(q, embed, rows[1..], k);
    }
  }

  /** `index_documents(df, batch_size)`, as a loop over the batches of `range(0, n, batch_size)`.
      `doc_texts` and the lexical scorer are set first; a zero step raises after that; a negative
      step gives an empty range. The map and index are extended, never cleared. */
  method IndexDocuments<V>(p: Pipeline<V>, rows: seq<Row>, batchSize: int, embed: string -> V)
    returns (r: Pipeline<V>, out: Outcome<PipelineError>)
    ensures r.docTexts == FullContents(rows)
    ensures NoTokens(FullContents(rows)) ==> out == Fail(EmptyCorpus) && r == p.(docTexts := FullContents(rows))
    ensures !NoTokens(FullContents(rows)) ==> r.bm25 == Some(Bm25(FullContents(rows)))
    ensures !NoTokens(FullContents(rows)) && batchSize == 0 ==>
      out == Fail(ZeroStep) && r.index == p.index && r.collectionMap == p.collectionMap
    ensures !NoTokens(FullContents(rows)) && batchSize < 0 ==>
      out == Pass && r.index == p.index && r.collectionMap == p.collectionMap
    ensures !NoTokens(FullContents(rows)) && batchSize > 0 ==>
      out == Pass && r == AddRows(p, embed, rows).(bm25 := r.bm25, docTexts := r.docTexts)
  {
    var texts := FullContents(rows);
    r := p.(docTexts := texts);
    var b := BuildBm25(texts);
    if b.Failure? {
      return r, Fail(b.error);
    }
    r := r.(bm25 := Some(b.value));
    if batchSize == 0 {
      return r, Fail(ZeroStep);
    }
    out := Pass;
    if batchSize < 0 {
      return;
    }
    var start := r;
    var i := 0;
    while i < |rows|
      invariant 0 <= i <= |rows|
      invariant r == AddRows(start, embed, rows[..i])
      decreases |rows| - i
    {
      var hi := if i + batchSize < |rows| then i + batchSize else |rows|;
      var batch := rows[i..hi];
      AddRowsAppend(start, embed, rows[..i], batch);
      assert rows[..i] + batch == rows[..hi];
      r := AddRows(r, embed, batch);
      i := hi;
    }
    assert rows[..i] == rows;
    AddRowsFrame(p, start, embed, rows);
  }

  /** A table built from at least one chunk always gives the scorer a token: every
      `Full_Content` holds the space between the header and the chunk text. */
  lemma TableHasTokens(docs: seq<SplitDocs.Chunk>)
    requires docs != []
    ensures !NoTokens(FullContents(GetDf(docs).rows))
  {
    var texts := FullContents(GetDf(docs).rows);
    assert texts[0] == Get(docs[0].meta, "h1_text", "head") + " " + docs[0].content;
    assert |texts[0]| > 0 && texts[0] in texts;
  }

  /** Extending two pipelines that differ only in `bm25`/`doc_texts` gives the same index and map. */
  lemma {:induction false} AddRowsFrame<V>(p: Pipeline<V>, q: Pipeline<V>, embed: string -> V, rows: seq<Row>)
    requires q.index == p.index && q.collectionMap == p.collectionMap
    ensures AddRows(q, embed, rows) == AddRows(p, embed, rows).(bm25 := q.bm25, docTexts := q.docTexts)
    decreases |rows|
  {
    if |rows| > 0 {
      AddRowsFrame(AddRow(p, embed, rows[0]), AddRow(q, embed, rows[0]), embed, rows[1..]);
    }
  }

  /** On a fresh pipeline, the map is aligned with `doc_texts`: the keys are exactly `0..n-1` and
      id `i` holds row `i`, whose content is `doc_texts[i]`. */
  lemma FreshIndexAligned<V>(rows: seq<Row>, embed: string -> V)
    ensures forall k | k in AddRows(Fresh<V>(), embed, rows).collectionMap :: k < |rows|
    ensures forall i: nat | i < |rows| ::
      && i in AddRows(Fresh<V>(), embed, rows).collectionMap
      && AddRows(Fresh<V>(), embed, rows).collectionMap[i] == Entry(rows[i].meta, FullContents(rows)[i])
  {
    var f := Fresh<V>();
    var m := AddRows(f, embed, rows).collectionMap;
    forall k: nat ensures k in m ==> k < |rows| {
      if k >= |rows| {
        AddRowsOldKey(f, embed, rows, k);
      }
    }
    forall i: nat | i < |rows| ensures i in m && m[i] == Entry(rows[i].meta, FullContents(rows)[i]) {
      AddRowsNewKey(f, embed, rows, i);
    }
  }

  // ---------------------------------------------------------------------------------------
  // save_index / load_index, over a path-to-blob store.

  datatype Blob<V> = IndexBlob(vectors: seq<V>) | MapBlob(m: map<nat, Entry>) | TextsBlob(texts: seq<string>)

  type Store<V> = map<string, Blob<V>>

  /** Three writes, in this order; a later write to the same path replaces an earlier one. */
  function SaveIndex<V>(p: Pipeline<V>, store: Store<V>, indexPath: string, mapPath: string, textsPath: string): (s: Store<V>)
    ensures s.Keys == store.Keys + {indexPath, mapPath, textsPath}
    ensures s[textsPath] == TextsBlob(p.docTexts)
    ensures mapPath != textsPath ==> s[mapPath] == MapBlob(p.collectionMap)
    ensures indexPath != mapPath && indexPath != textsPath ==> s[indexPath] == IndexBlob(p.index.vectors)
    ensures forall k | k in store && k !in {indexPath, mapPath, textsPath} :: s[k] == store[k]
  {
    store[indexPath := IndexBlob(p.index.vectors)][mapPath := MapBlob(p.collectionMap)][textsPath := TextsBlob(p.docTexts)]
  }

  /** Three reads, each assigned as soon as it succeeds, then the scorer is rebuilt from the texts.
      A failing step leaves the earlier assignments in place. */
  function LoadIndex<V>(p: Pipeline<V>, store: Store<V>, indexPath: string, mapPath: string, textsPath: string): (r: (Pipeline<V>, Outcome<PipelineError>))
    ensures r.1.Pass? <==>
      && indexPath in store && store[indexPath].IndexBlob?
      && mapPath in store && store[mapPath].MapBlob?
      && textsPath in store && store[textsPath].TextsBlob? && !NoTokens(store[textsPath].texts)
    ensures r.1.Pass? ==> r.0 == Pipeline(VectorIndex(store[indexPath].vectors), store[mapPath].m,
                                          Some(Bm25(store[textsPath].texts)), store[textsPath].texts)
    ensures !(indexPath in store && store[indexPath].IndexBlob?) ==> r == (p, Fail(MissingFile(indexPath)))
  {
    if !(indexPath in store && store[indexPath].IndexBlob?) then (p, Fail(MissingFile(indexPath)))
    else
      var p1 := p.(index := VectorIndex(store[indexPath].vectors));
      if !(mapPath in store && store[mapPath].MapBlob?) then (p1, Fail(MissingFile(mapPath)))
      else
        var p2 := p1.(collectionMap := store[mapPath].m);
        if !(textsPath in store && store[textsPath].TextsBlob?) then (p2, Fail(MissingFile(textsPath)))
        else
          var p3 := p2.(docTexts := store[textsPath].texts);
          match BuildBm25(p3.docTexts)
          case Failure(e) => (p3, Fail(e))
          case Success(b) => (p3.(bm25 := Some(b)), Pass)
  }

  /** Saving to three distinct paths and loading them back restores the index, the map and the
      texts, whatever the loading pipeline held; the scorer is rebuilt from the restored texts. */
  lemma SaveLoadRoundTrip<V>(p: Pipeline<V>, q: Pipeline<V>, store: Store<V>, ip: string, mp: string, tp: string)
    requires ip != mp && ip != tp && mp != tp
    requires !NoTokens(p.docTexts)
    ensures LoadIndex(q, SaveIndex(p, store, ip, mp, tp), ip, mp, tp) ==
      (p.(bm25 := Some(Bm25(p.docTexts))), Pass)
  {
  }

  /** After `index_documents` on a table with some text the scorer already is the one rebuilt from the
      texts, so the round trip gives back the pipeline itself. */
  lemma SaveLoadIdentity<V>(p: Pipeline<V>, q: Pipeline<V>, store: Store<V>, ip: string, mp: string, tp: string)
    requires ip != mp && ip != tp && mp != tp
    requires !NoTokens(p.docTexts) && p.bm25 == Some(Bm25(p.docTexts))
    ensures LoadIndex(q, SaveIndex(p, store, ip, mp, tp), ip, mp, tp) == (p, Pass)
  {
    SaveLoadRoundTrip(p, q, store, ip, mp, tp);
  }

  /** Saving the index and the texts to the same path overwrites the index, and loading fails. */
  lemma SavedPathCollision<V>(p: Pipeline<V>, q: Pipeline<V>, store: Store<V>, path: string, mp: string)
    requires mp != path
    ensures LoadIndex(q, SaveIndex(p, store, path, mp, path), path, mp, path) == (q, Fail(MissingFile(path)))
  {
  }

  // ---------------------------------------------------------------------------------------
  // query.

  /** A result dict `{'index', 'doc_id', 'content'}`. */
  datatype Candidate = Candidate(index: nat, docId: string, content: string)

  /** `s[:k]` for any integer `k`, negative counting from the end. */
  function PyTake<T>(s: seq<T>, k: int): (r: seq<T>)
    ensures k >= 0 ==> |r| == if k < |s| then k else |s|
    ensures k < 0 ==> |r| == if -k < |s| then |s| + k else 0
    ensures r <= s
  {
    if k >= 0 then (if k < |s| then s[..k] else s)
    else if -k < |s| then s[..|s| + k] else []
  }

  /** Look every id up in the map; the first missing one raises `KeyError`. */
  function Lookup(m: map<nat, Entry>, ids: seq<nat>): (r: Result<seq<Candidate>, PipelineError>)
    ensures r.Failure? <==> exists i | 0 <= i < |ids| :: ids[i] !in m
    ensures r.Success? ==> |r.value| == |ids|
    ensures r.Success? ==> forall i | 0 <= i < |ids| :: r.value[i] == Candidate(ids[i], m[ids[i]].docId, m[ids[i]].content)
  {
    if |ids| == 0 then Success([])
    else if ids[0] !in m then Failure(MissingKey(ids[0]))
    else
      var rest := Lookup(m, ids[1..]);
      assert forall i | 1 <= i < |ids| :: ids[i] == ids[1..][i - 1];
      if rest.Failure? then rest
      else Success([Candidate(ids[0], m[ids[0]].docId, m[ids[0]].content)] + rest.value)
  }

  /** `list(set(...))`, as each element at its last occurrence. Python's set iteration order is
      not specified; every property below is stated about the set of results. */
  function Distinct(xs: seq<Candidate>): (r: seq<Candidate>)
    ensures forall a, b | 0 <= a < b < |r| :: r[a] != r[b]
    ensures forall x | x in r :: x in xs
    ensures forall x | x in xs :: x in r
    ensures |r| <= |xs|
  {
    if |xs| == 0 then []
    else
      var rest := Distinct(xs[1..]);
      if xs[0] in rest then rest
      else
        assert forall x | x in xs :: x == xs[0] || x in xs[1..];
        [xs[0]] + rest
  }

  /** `bm25.get_scores(query)`: one score per corpus text, `score(b, i)` being that of text `i`. */
  function Scores(b: Bm25, score: (Bm25, nat) -> int): (r: seq<int>)
    ensures |r| == |b.corpus|
    ensures forall i | 0 <= i < |r| :: r[i] == score(b, i)
  {
    seq(|b.corpus|, i requires 0 <= i < |b.corpus| => score(b, i))
  }

  /** `sorted_indices[:k]`: the first `k` positions of the lexical ranking. */
  function LexicalTop(b: Bm25, score: (Bm25, nat) -> int, k: int): (r: seq<nat>)
    ensures forall i | 0 <= i < |r| :: r[i] < |b.corpus|
  {
    var order := SortedIndices(Scores(b, score));
    var r := PyTake(order, k);
    forall i | 0 <= i < |r| ensures r[i] < |b.corpus| {
      assert r[i] == order[i];
      assert order[i] in multiset(Range(|b.corpus|));
    }
    r
  }

  /** The query. `dense` is the id list the nearest-neighbour search returned for the embedded
      query (`index.query(...)[0]`) and `score` the lexical score of each corpus text. */
  function Query<V>(p: Pipeline<V>, dense: seq<nat>, score: (Bm25, nat) -> int, k: int): (r: Result<seq<Candidate>, PipelineError>)
    ensures r.Failure? <==>
      || (exists i | 0 <= i < |dense| :: dense[i] !in p.collectionMap)
      || p.bm25.None?
      || exists i | 0 <= i < |LexicalTop(p.bm25.value, score, k)| :: LexicalTop(p.bm25.value, score, k)[i] !in p.collectionMap
    ensures r.Success? ==> forall a, b | 0 <= a < b < |r.value| :: r.value[a] != r.value[b]
    ensures r.Success? ==> forall c | c in r.value ::
      c.index in dense && c.index in p.collectionMap &&
      c == Candidate(c.index, p.collectionMap[c.index].docId, p.collectionMap[c.index].content)
    ensures r.Success? && k >= 0 ==> |r.value| <= 2 * k
    ensures r.Success? && 0 <= |dense| <= k ==>
      forall i | 0 <= i < |dense| :: Candidate(dense[i], p.collectionMap[dense[i]].docId, p.collectionMap[dense[i]].content) in r.value
  {
    var denseDocs :- Lookup(p.collectionMap, dense);
    if p.bm25.None? then Failure(NotReady)
    else
      var lexical :- Lookup(p.collectionMap, LexicalTop(p.bm25.value, score, k));
      DenseCandidates(p.collectionMap, dense, k);
      Success(PyTake(Distinct(denseDocs), 2 * k))
  }

  /** What the query keeps of the dense look-up: entries of the map under dense ids, and all of
      them when there are at most `k` dense ids. */
  lemma DenseCandidates(m: map<nat, Entry>, dense: seq<nat>, k: int)
    requires Lookup(m, dense).Success?
    ensures forall c | c in PyTake(Distinct(Lookup(m, dense).value), 2 * k) ::
      c.index in dense && c.index in m && c == Candidate(c.index, m[c.index].docId, m[c.index].content)
    ensures 0 <= |dense| <= k ==> PyTake(Distinct(Lookup(m, dense).value), 2 * k) == Distinct(Lookup(m, dense).value)
  {
    var docs := Lookup(m, dense).value;
    var r := PyTake(Distinct(docs), 2 * k);
    forall c | c in r
      ensures c.index in dense && c.index in m && c == Candidate(c.index, m[c.index].docId, m[c.index].content)
    {
      assert c in Distinct(docs);
      var i :| 0 <= i < |docs| && docs[i] == c;
      assert dense[i] in dense;
    }
  }

  /** When the map's keys are exactly the corpus positions `0..n-1`, every lexical id is a key, so
      the query succeeds exactly when every dense id is below `n`. */
  lemma AlignedQuerySucceeds<V>(p: Pipeline<V>, dense: seq<nat>, score: (Bm25, nat) -> int, k: int)
    requires p.bm25.Some?
    requires forall i: nat | i < |p.bm25.value.corpus| :: i in p.collectionMap
    requires forall key | key in p.collectionMap :: key < |p.bm25.value.corpus|
    ensures Query(p, dense, score, k).Success? <==> forall i | 0 <= i < |dense| :: dense[i] < |p.bm25.value.corpus|
  {
    var top := LexicalTop(p.bm25.value, score, k);
    forall i | 0 <= i < |top| ensures top[i] in p.collectionMap {
      var t: nat := top[i];
      assert t < |p.bm25.value.corpus|;
    }
  }

  /** On a pipeline freshly indexed from a table, the query succeeds exactly when every
      dense id is one of the indexed rows. */
  lemma IndexedQuerySucceeds<V>(rows: seq<Row>, embed: string -> V, dense: seq<nat>, score: (Bm25, nat) -> int, k: int)
    ensures
      var p := AddRows(Fresh<V>(), embed, rows).(bm25 := Some(Bm25(FullContents(rows))), docTexts := FullContents(rows));
      Query(p, dense, score, k).Success? <==> forall i | 0 <= i < |dense| :: dense[i] < |rows|
  {
    var q := AddRows(Fresh<V>(), embed, rows);
    var p := q.(bm25 := Some(Bm25(FullContents(rows))), docTexts := FullContents(rows));
    FreshIndexAligned(rows, embed);
    assert p.collectionMap == q.collectionMap;
    AlignedQuerySucceeds(p, dense, score, k);
  }
}

=== FILE: scraper.dfy ===
/** The decisions the documentation scraper makes about a page: which documentation section a URL
    belongs to, whether a URL is crawled at all, and how the top-level elements of a page's
    markdown area become the item list saved as JSON. Pages, elements and the browser are
    abstract: an element is described by its tag name, its classes and what its handler reads
    from it. */
module Scraper {
  import opened Wrappers
  import opened Strings
  import JsonDoc

  /** The section names, highest priority first. */
  const SectionPriority: seq<string> := ["developers", "users", "sdk", "api", "guides"]

  /** The first candidate that is one of `parts`. */
  function FirstPresent(candidates: seq<string>, parts: seq<string>): (r: Option<string>)
    ensures r.None? <==> forall k | 0 <= k < |candidates| :: candidates[k] !in parts
    ensures r.Some? ==> exists k | 0 <= k < |candidates| ::
      candidates[k] == r.value && r.value in parts && forall j | 0 <= j < k :: candidates[j] !in parts
  {
    if |candidates| == 0 then None
    else if candidates[0] in parts then Some(candidates[0])
    else
      var r := FirstPresent(candidates[1..], parts);
      assert forall j | 1 <= j < |candidates| :: candidates[j] == candidates[1..][j - 1];
      if r.Some? then
        var k :| 0 <= k < |candidates[1..]| && candidates[1..][k] == r.value && r.value in parts &&
                 forall j | 0 <= j < k :: candidates[1..][j] !in parts;
        assert candidates[k + 1] == r.value;
        r
      else
        r
  }

  /** `doc_section` for the URL the browser is on: the name of the highest-priority section that is
      one of the URL's `/`-separated segments, or `""`. */
  function DocSection(url: string): (r: string)
    ensures r == "" || r in SectionPriority
    ensures r in Split(url, '/') || r == ""
  {
    FirstPresent(SectionPriority, Split(url, '/')).GetOr("")
  }

  /** The section is empty exactly when no segment is a section name; otherwise every section
      name of higher priority is missing from the segments. */
  lemma DocSectionPriority(url: string)
    ensures DocSection(url) == "" <==> forall k | 0 <= k < |SectionPriority| :: SectionPriority[k] !in Split(url, '/')
    ensures forall k | 0 <= k < |SectionPriority| && SectionPriority[k] == DocSection(url) ::
      forall j | 0 <= j < k :: SectionPriority[j] !in Split(url, '/')
  {
    var r := DocSection(url);
    var parts := Split(url, '/');
    assert forall k | 0 <= k < |SectionPriority| :: SectionPriority[k] != "";
    if r != "" {
      var k :| 0 <= k < |SectionPriority| && SectionPriority[k] == r && r in parts &&
               forall j | 0 <= j < k :: SectionPriority[j] !in parts;
      forall k' | 0 <= k' < |SectionPriority| && SectionPriority[k'] == r
        ensures forall j | 0 <= j < k' :: SectionPriority[j] !in parts
      {
        assert k' == k;
      }
    }
  }

  /** Only whole segments count: a two-segment URL whose segments are not section names, such as
      `a/developers-guide`, gets no section even when a segment contains one. */
  lemma WholeSegmentsOnly(a: string, b: string)
    requires '/' !in a && '/' !in b
    requires a !in SectionPriority && b !in SectionPriority
    ensures DocSection(a + ['/'] + b) == ""
  {
    SplitNoSeparator(b, '/');
    SplitFirst(a, '/', b);
    var parts := Split(a + ['/'] + b, '/');
    assert parts == [a, b];
    assert forall k | 0 <= k < |SectionPriority| :: SectionPriority[k] != a && SectionPriority[k] != b;
  }

  /** The page language: the locale tag's content, or `"unknown"` when the tag is absent. */
  function Language(locale: Option<string>): (r: string)
    ensures locale.Some? ==> r == locale.value
    ensures locale.None? ==> r == "unknown"
  {
    locale.GetOr("unknown")
  }

  /** `get_meta_information`, with the clock reading passed in. */
  function MetaInformation(locale: Option<string>, now: string, url: string): (m: map<string, string>)
    ensures m.Keys == {"language", "parse_date", "current_url", "doc_section"}
    ensures m["language"] == Language(locale) && m["parse_date"] == now
    ensures m["current_url"] == url && m["doc_section"] == DocSection(url)
  {
    map["language" := Language(locale), "parse_date" := now, "current_url" := url, "doc_section" := DocSection(url)]
  }

  /** `url.split('#')[0]`: the URL without its fragment. */
  function NormalizeUrl(url: string): (r: string)
    ensures r <= url
    ensures '#' !in r
    ensures |r| < |url| ==> url[|r|] == '#'
    ensures '#' !in url ==> r == url
  {
    SplitHead(url, '#');
    Split(url, '#')[0]
  }

  /** Normalising twice is normalising once. */
  lemma NormalizeIdempotent(url: string)
    ensures NormalizeUrl(NormalizeUrl(url)) == NormalizeUrl(url)
  {
  }

  /** The guard at the top of `scrape_site`: `None` when the page is skipped, otherwise the new
      visited set. */
  function Visit(visited: set<string>, url: string, baseUrl: string): (r: Option<set<string>>)
    ensures r.None? <==> NormalizeUrl(url) in visited || !(baseUrl <= NormalizeUrl(url))
    ensures r.Some? ==> r.value == visited + {NormalizeUrl(url)} && |r.value| == |visited| + 1
  {
    var n := NormalizeUrl(url);
    if n in visited || !(baseUrl <= n) then None
    else Some(visited + {n})
  }

  /** A page is crawled at most once: once visited, the same URL, with or without a fragment, is
      skipped. */
  lemma VisitOnce(visited: set<string>, url: string, other: string, baseUrl: string)
    requires Visit(visited, url, baseUrl).Some?
    requires NormalizeUrl(other) == NormalizeUrl(url)
    ensures Visit(Visit(visited, url, baseUrl).value, other, baseUrl).None?
  {
  }

  /** One entry of the saved item list. `Typed` is an item with a `type` field; its `content` is
      `Missing` when the item has no `content` field. `Tab` is what `handle_tabs` emits. */
  datatype Node =
    | Typed(kind: string, text: string, content: NodeList)
    | Tab(tabLabel: string, panel: seq<Node>)

  /** A `content` key that an item may or may not carry. */
  datatype NodeList = Missing | Listed(list: seq<Node>)

  /** `'content' in item`. */
  predicate HasContent(n: Node)
  {
    n.Tab? || n.content.Listed?
  }

  /** The `content` list of an item that has one. */
  function ContentOf(n: Node): seq<Node>
    requires HasContent(n)
  {
    if n.Tab? then n.panel else n.content.list
  }

  /** Two items agree on everything but their `content`. */
  predicate SameHead(a: Node, b: Node)
  {
    a.Tab? == b.Tab? && (a.Tab? ==> a.tabLabel == b.tabLabel) && (a.Typed? ==> a.kind == b.kind && a.text == b.text)
  }

  /** The same item with `x` appended to its `content`. */
  function AppendContent(n: Node, x: Node): (r: Node)
    requires HasContent(n)
    ensures HasContent(r) && ContentOf(r) == ContentOf(n) + [x]
    ensures SameHead(r, n)
  {
    if n.Tab? then Tab(n.tabLabel, n.panel + [x]) else Typed(n.kind, n.text, Listed(n.content.list + [x]))
  }

  /** A top-level child of the markdown area. A `Tag` carries its name and classes and what the
      handler for it would read: its text (header text, admonition title, details summary, code),
      the tab labels and panels of a tab container, and the paragraphs of an admonition or
      details block. */
  datatype Element =
    | NonTag
    | Tag(name: string, classes: seq<string>, text: string,
          tabLabels: seq<string>, tabPanels: seq<seq<Node>>, body: seq<Node>)

  const HeaderNames: seq<string> := ["h1", "h2", "h3", "h4", "h5", "h6"]

  /** `handle_header`: a header item with an empty `content`. */
  function HandleHeader(name: string, text: string): (r: Node)
    ensures HasContent(r) && ContentOf(r) == []
  {
    Typed(name, text, Listed([]))
  }

  /** `handle_paragraph`. */
  function HandleParagraph(text: string): Node
  {
    Typed("paragraph", text, Missing)
  }

  /** `handle_tabs`: labels and panels paired by position, as `zip` does. */
  function HandleTabs(labels: seq<string>, panels: seq<seq<Node>>): (r: seq<Node>)
    ensures |labels| <= |panels| ==> |r| == |labels|
    ensures |panels| <= |labels| ==> |r| == |panels|
    ensures forall i | 0 <= i < |r| :: i < |labels| && i < |panels| && r[i] == Tab(labels[i], panels[i])
  {
    var n := if |labels| <= |panels| then |labels| else |panels|;
    seq(n, i requires 0 <= i < n => Tab(labels[i], panels[i]))
  }

  /** What one element adds to the item list built so far. */
  function Step(acc: seq<Node>, e: Element): (r: seq<Node>)
  {
    if e.NonTag? then acc
    else if e.name in HeaderNames then acc + [HandleHeader(e.name, e.text)]
    else if e.name == "p" then
      if |acc| > 0 && HasContent(acc[|acc| - 1]) then
        acc[..|acc| - 1] + [AppendContent(acc[|acc| - 1], HandleParagraph(e.text))]
      else acc
    else if e.name == "ul" || e.name == "ol" then
      acc + [Typed(if e.name == "ol" then "ordered" else "unordered", "", Missing)]
    else if e.name == "table" then acc + [Typed("table", "", Missing)]
    else if e.name == "div" && "tabs-container" in e.classes then acc + HandleTabs(e.tabLabels, e.tabPanels)
    else if "theme-admonition" in e.classes then acc + [Typed("admonition", e.text, Listed(e.body))]
    else if e.name == "details" then acc + [Typed("details", e.text, Listed(e.body))]
    else if "theme-code-block" in e.classes then acc + [Typed("code", e.text, Missing)]
    else acc
  }

  function ParseFrom(acc: seq<Node>, elements: seq<Element>): seq<Node>
    decreases |elements|
  {
    if |elements| == 0 then acc else ParseFrom(Step(acc, elements[0]), elements[1..])
  }

  /** `parse_content`: `area` is the markdown area's children, `None` when the page has none. */
  function ParseContent(area: Option<seq<Element>>): (r: seq<Node>)
    ensures area.None? ==> r == []
  {
    if area.None? then [] else ParseFrom([], area.value)
  }

  predicate IsParagraphTag(e: Element)
  {
    e.Tag? && e.name == "p"
  }

  /** The text a handler reads from an element; a non-tag has none. */
  function TextOf(e: Element): string
  {
    if e.Tag? then e.text else ""
  }

  /** A paragraph goes into the `content` of the last item when that item has one, and is dropped
      otherwise; either way the items before the last are untouched. */
  lemma ParagraphAttachment(acc: seq<Node>, e: Element)
    requires IsParagraphTag(e)
    ensures |acc| > 0 && HasContent(acc[|acc| - 1]) ==>
      && |Step(acc, e)| == |acc|
      && Step(acc, e)[..|acc| - 1] == acc[..|acc| - 1]
      && SameHead(Step(acc, e)[|acc| - 1], acc[|acc| - 1])
      && HasContent(Step(acc, e)[|acc| - 1])
      && ContentOf(Step(acc, e)[|acc| - 1]) == ContentOf(acc[|acc| - 1]) + [HandleParagraph(e.text)]
    ensures !(|acc| > 0 && HasContent(acc[|acc| - 1])) ==> Step(acc, e) == acc
  {
    assert e.name !in HeaderNames;
  }

  /** No paragraph ever reaches the top level of the item list. */
  predicate NoTopParagraph(items: seq<Node>)
  {
    forall i | 0 <= i < |items| :: !(items[i].Typed? && items[i].kind == "paragraph")
  }

  lemma {:induction false} ParseFromNoTopParagraph(acc: seq<Node>, elements: seq<Element>)
    requires NoTopParagraph(acc)
    ensures NoTopParagraph(ParseFrom(acc, elements))
    decreases |elements|
  {
    if |elements| > 0 {
      var next := Step(acc, elements[0]);
      assert NoTopParagraph(next);
      ParseFromNoTopParagraph(next, elements[1..]);
    }
  }

  lemma ParseContentNoTopParagraph(area: Option<seq<Element>>)
    ensures NoTopParagraph(ParseContent(area))
  {
    if area.Some? {
      ParseFromNoTopParagraph([], area.value);
    }
  }

  /** The dict a saved entry is once the JSON passes read it back. Each handler stores the
      element's text under its own key: `title` for an admonition, `summary` for details, none
      for a list or a table (which carry `items` and `rows` instead), `text` for the rest. A tab
      record carries `tab_label` and `content` and no `type`. */
  function ToItem(n: Node): (r: JsonDoc.Item)
    ensures r.kind == (if n.Typed? then Some(n.kind) else None)
    ensures n.Tab? ==> r.tabLabel == Some(n.tabLabel) && r.text.None?
    ensures n.Typed? && n.kind == "admonition" ==> r.title == Some(n.text) && r.text.None?
    ensures n.Typed? && n.kind == "details" ==> r.summary == Some(n.text) && r.text.None?
    ensures n.Typed? && (n.kind == "ordered" || n.kind == "unordered") ==> r.items.Present? && r.text.None?
    ensures n.Typed? && n.kind == "table" ==> r.rows.Some? && r.text.None?
    ensures n.Typed? && !TextlessKind(n.kind) ==> r.text == Some(n.text)
    ensures r.content.Present? <==> HasContent(n)
    ensures HasContent(n) ==> |r.content.list| == |ContentOf(n)|
    ensures JsonDoc.WellFormed(r)
  {
    match n
    case Typed(kind, text, c) =>
      var base := JsonDoc.EmptyItem.(kind := Some(kind),
                                     content := if c.Listed? then JsonDoc.Present(ToItems(c.list)) else JsonDoc.Absent);
      if kind == "admonition" then base.(title := Some(text))
      else if kind == "details" then base.(summary := Some(text))
      else if kind == "ordered" || kind == "unordered" then base.(items := JsonDoc.Present([]))
      else if kind == "table" then base.(rows := Some([]))
      else base.(text := Some(text))
    case Tab(tabLabel, panel) =>
      JsonDoc.EmptyItem.(tabLabel := Some(tabLabel), content := JsonDoc.Present(ToItems(panel)))
  }

  /** The types whose handler stores no `text` key. */
  predicate TextlessKind(k: string)
  {
    k == "admonition" || k == "details" || k == "ordered" || k == "unordered" || k == "table"
  }

  function ToItems(ns: seq<Node>): (r: seq<JsonDoc.Item>)
    ensures |r| == |ns|
    ensures JsonDoc.AllWellFormed(r)
  {
    seq(|ns|, i requires 0 <= i < |ns| => ToItem(ns[i]))
  }

  /** Read back as dicts, the saved item list has no top-level paragraph either. */
  lemma ParsedItemsNoTopParagraph(area: Option<seq<Element>>)
    ensures var items := ParseContent(area);
      forall i | 0 <= i < |items| :: !JsonDoc.IsParagraph(ToItem(items[i]))
  {
    ParseContentNoTopParagraph(area);
  }

  /** The paragraph items for the texts of a run of `p` elements. */
  function ParagraphNodes(elements: seq<Element>): (r: seq<Node>)
    requires forall i | 0 <= i < |elements| :: IsParagraphTag(elements[i])
    ensures |r| == |elements|
    ensures forall i | 0 <= i < |elements| :: r[i] == HandleParagraph(TextOf(elements[i]))
  {
    seq(|elements|, i requires 0 <= i < |elements| => HandleParagraph(TextOf(elements[i])))
  }

  /** A run of paragraphs after an item with `content` all land in that item, in order. */
  lemma {:induction false} ParagraphRunAttaches(acc: seq<Node>, ps: seq<Element>)
    requires |acc| > 0 && HasContent(acc[|acc| - 1])
    requires forall i | 0 <= i < |ps| :: IsParagraphTag(ps[i])
    ensures |ParseFrom(acc, ps)| == |acc|
    ensures ParseFrom(acc, ps)[..|acc| - 1] == acc[..|acc| - 1]
    ensures SameHead(ParseFrom(acc, ps)[|acc| - 1], acc[|acc| - 1])
    ensures HasContent(ParseFrom(acc, ps)[|acc| - 1])
    ensures ContentOf(ParseFrom(acc, ps)[|acc| - 1]) == ContentOf(acc[|acc| - 1]) + ParagraphNodes(ps)
    decreases |ps|
  {
    if |ps| > 0 {
      var next := Step(acc, ps[0]);
      ParagraphAttachment(acc, ps[0]);
      assert ParseFrom(acc, ps) == ParseFrom(next, ps[1..]);
      ParagraphRunAttaches(next, ps[1..]);
      ParagraphNodesCons(ps);
    } else {
      assert ParagraphNodes(ps) == [];
    }
  }

  lemma ParagraphNodesCons(ps: seq<Element>)
    requires |ps| > 0
    requires forall i | 0 <= i < |ps| :: IsParagraphTag(ps[i])
    ensures ParagraphNodes(ps) == [HandleParagraph(TextOf(ps[0]))] + ParagraphNodes(ps[1..])
  {
    assert forall i | 1 <= i < |ps| :: ps[1..][i - 1] == ps[i];
  }

  /** A header followed by paragraphs becomes one header item holding those paragraphs. */
  lemma HeaderCollectsParagraphs(h: Element, ps: seq<Element>)
    requires h.Tag? && h.name in HeaderNames
    requires forall i | 0 <= i < |ps| :: IsParagraphTag(ps[i])
    ensures ParseContent(Some([h] + ps)) == [Typed(h.name, h.text, Listed(ParagraphNodes(ps)))]
  {
    var acc := [HandleHeader(h.name, h.text)];
    assert ([h] + ps)[1..] == ps && ([h] + ps)[0] == h;
    assert Step([], h) == acc;
    assert ParseContent(Some([h] + ps)) == ParseFrom(acc, ps);
    ParagraphRunAttaches(acc, ps);
    var r := ParseFrom(acc, ps);
    assert SameHead(r[0], acc[0]) && ContentOf(acc[0]) == [];
    assert [] + ParagraphNodes(ps) == ParagraphNodes(ps);
    assert r[0] == Typed(h.name, h.text, Listed(ParagraphNodes(ps)));
  }

  /** Paragraphs before any item are dropped. */
  lemma {:induction false} LeadingParagraphsDropped(ps: seq<Element>)
    requires forall i | 0 <= i < |ps| :: IsParagraphTag(ps[i])
    ensures ParseFrom([], ps) == []
    decreases |ps|
  {
    if |ps| > 0 {
      assert ps[0].name !in HeaderNames;
      LeadingParagraphsDropped(ps[1..]);
    }
  }
}

=== FILE: sort.dfy ===
/** `sorted(range(n), key=lambda i: scores[i], reverse=True)`: the positions of a score list from
    the highest score to the lowest. Python's sort is stable even when reversed, so positions with
    equal scores stay in ascending order. */
module LexicalSort {

  /** `i` goes before `j`: a higher score, or an equal score and a smaller position. */
  predicate Before(scores: seq<int>, i: nat, j: nat)
    requires i < |scores| && j < |scores|
  {
    scores[i] > scores[j] || (scores[i] == scores[j] && i < j)
  }

  /** Positions of the score list, ordered by score descending, ties by position ascending. */
  predicate SortedDesc(scores: seq<int>, xs: seq<nat>)
  {
    && InRange(scores, xs)
    && forall a, b | 0 <= a < b < |xs| :: Before(scores, xs[a], xs[b])
  }

  predicate InRange(scores: seq<int>, xs: seq<nat>)
  {
    forall a | 0 <= a < |xs| :: xs[a] < |scores|
  }

  /** `0, 1, ..., n-1`. */
  function Range(n: nat): (r: seq<nat>)
    ensures |r| == n
    ensures forall i | 0 <= i < n :: r[i] == i
  {
    seq(n, i requires 0 <= i < n => i)
  }

  /** Insert `x` in front of the first element it goes before. */
  function Insert(scores: seq<int>, x: nat, xs: seq<nat>): (r: seq<nat>)
    requires x < |scores| && InRange(scores, xs)
    ensures InRange(scores, r)
    ensures multiset(r) == multiset(xs) + multiset{x}
  {
    if |xs| == 0 then [x]
    else if Before(scores, x, xs[0]) then
      assert xs == [xs[0]] + xs[1..];
      [x] + xs
    else
      assert xs == [xs[0]] + xs[1..];
      [xs[0]] + Insert(scores, x, xs[1..])
  }

  /** `Before` orders any two different positions one way or the other. */
  lemma BeforeTotal(scores: seq<int>, i: nat, j: nat)
    requires i < |scores| && j < |scores| && i != j
    ensures Before(scores, i, j) || Before(scores, j, i)
  {
  }

  lemma {:induction false} SortedTail(scores: seq<int>, xs: seq<nat>)
    requires |xs| > 0 && SortedDesc(scores, xs)
    ensures SortedDesc(scores, xs[1..])
  {
    var t := xs[1..];
    forall a | 0 <= a < |t| ensures t[a] < |scores| {
      assert t[a] == xs[a + 1];
    }
    forall a, b | 0 <= a < b < |t| ensures Before(scores, t[a], t[b]) {
      assert t[a] == xs[a + 1] && t[b] == xs[b + 1];
    }
  }

  /** Inserting a new position into a sorted list keeps it sorted. */
  lemma {:induction false} InsertSorted(scores: seq<int>, x: nat, xs: seq<nat>)
    requires x < |scores| && InRange(scores, xs)
    requires SortedDesc(scores, xs) && x !in xs
    ensures SortedDesc(scores, Insert(scores, x, xs))
  {
    var r := Insert(scores, x, xs);
    if |xs| == 0 {
    } else if Before(scores, x, xs[0]) {
      forall a, b | 0 <= a < b < |r| ensures Before(scores, r[a], r[b]) {
        if a > 0 {
          assert r[a] == xs[a - 1] && r[b] == xs[b - 1];
        } else if b > 1 {
          assert r[b] == xs[b - 1];
          assert Before(scores, xs[0], xs[b - 1]);
        }
      }
    } else {
      SortedTail(scores, xs);
      InsertSorted(scores, x, xs[1..]);
      HeadBeforeInserted(scores, x, xs);
      var rest := Insert(scores, x, xs[1..]);
      forall a, b | 0 <= a < b < |r| ensures Before(scores, r[a], r[b]) {
        if a > 0 {
          assert r[a] == rest[a - 1] && r[b] == rest[b - 1];
        } else {
          assert r[b] == rest[b - 1];
        }
      }
    }
  }

  /** When `x` goes after the head, the head goes before everything the insertion leaves behind it. */
  lemma HeadBeforeInserted(scores: seq<int>, x: nat, xs: seq<nat>)
    requires x < |scores| && |xs| > 0 && SortedDesc(scores, xs) && InRange(scores, xs[1..])
    requires x !in xs && !Before(scores, x, xs[0])
    ensures forall k | 0 <= k < |Insert(scores, x, xs[1..])| :: Before(scores, xs[0], Insert(scores, x, xs[1..])[k])
  {
    var rest := Insert(scores, x, xs[1..]);
    BeforeTotal(scores, x, xs[0]);
    forall k | 0 <= k < |rest| ensures Before(scores, xs[0], rest[k]) {
      assert rest[k] in multiset(rest);
      if rest[k] != x {
        assert rest[k] in multiset(xs[1..]);
        var j :| 0 <= j < |xs[1..]| && xs[1..][j] == rest[k];
        assert xs[j + 1] == rest[k];
      }
    }
  }

  /** Insertion sort of `xs`, inserting from the back so that the first of equal keys ends first. */
  function SortFrom(scores: seq<int>, xs: seq<nat>): (r: seq<nat>)
    requires InRange(scores, xs)
    ensures InRange(scores, r)
    ensures multiset(r) == multiset(xs)
  {
    if |xs| == 0 then []
    else
      assert xs == [xs[0]] + xs[1..];
      Insert(scores, xs[0], SortFrom(scores, xs[1..]))
  }

  /** `sorted_indices`. */
  function SortedIndices(scores: seq<int>): (r: seq<nat>)
    ensures multiset(r) == multiset(Range(|scores|))
    ensures SortedDesc(scores, r)
  {
    SortFromSorted(scores, Range(|scores|));
    SortFrom(scores, Range(|scores|))
  }

  predicate Distinct(xs: seq<nat>)
  {
    forall a, b | 0 <= a < b < |xs| :: xs[a] != xs[b]
  }

  lemma {:induction false} SortFromSorted(scores: seq<int>, xs: seq<nat>)
    requires InRange(scores, xs) && Distinct(xs)
    ensures SortedDesc(scores, SortFrom(scores, xs))
  {
    if |xs| > 0 {
      assert Distinct(xs[1..]) by {
        forall a, b | 0 <= a < b < |xs[1..]| ensures xs[1..][a] != xs[1..][b] {
          assert 0 <= a + 1 < b + 1 < |xs|;
          assert xs[1..][a] == xs[a + 1] && xs[1..][b] == xs[b + 1];
        }
      }
      SortFromSorted(scores, xs[1..]);
      var s := SortFrom(scores, xs[1..]);
      assert xs[0] !in multiset(s);
      InsertSorted(scores, xs[0], s);
    }
  }

  /** The sorted positions are a permutation of `0..n-1`: every position exactly once. */
  lemma SortedIndicesPermutation(scores: seq<int>)
    ensures |SortedIndices(scores)| == |scores|
    ensures forall i | 0 <= i < |scores| :: i in SortedIndices(scores)
    ensures Distinct(SortedIndices(scores))
  {
    var r := SortedIndices(scores);
    var rg := Range(|scores|);
    assert |r| == |multiset(r)| == |multiset(rg)| == |scores|;
    forall i | 0 <= i < |scores| ensures i in r {
      assert rg[i] == i;
      assert i in multiset(rg);
    }
    forall a, b | 0 <= a < b < |r| ensures r[a] != r[b] {
      assert Before(scores, r[a], r[b]);
    }
  }

  /** The scores along the sorted positions never increase, and equal scores keep their order. */
  lemma SortedIndicesOrder(scores: seq<int>, a: nat, b: nat)
    requires a < b < |SortedIndices(scores)|
    ensures SortedIndices(scores)[a] < |scores| && SortedIndices(scores)[b] < |scores|
    ensures scores[SortedIndices(scores)[a]] >= scores[SortedIndices(scores)[b]]
    ensures scores[SortedIndices(scores)[a]] == scores[SortedIndices(scores)[b]] ==>
      SortedIndices(scores)[a] < SortedIndices(scores)[b]
  {
  }
}

=== FILE: split_docs.dfy ===
/** `split`: flattened pages are read back, every page's text is cut into chunks by an external
    splitter, each chunk is preprocessed and labelled with its page's metadata, and chunks whose
    text was already produced are dropped. */
module SplitDocs {
  import opened Wrappers
  import opened Strings
  import opened Preprocess

  type Meta = map<string, string>

  /** A flattened page as read back: either key may be missing. */
  datatype Page = Page(text: Option<string>, meta: Option<Meta>)

  /** What opening and parsing one file gave: the parsed page, a missing file or a body that is
      not JSON (both caught and reported only), or any other read failure (an undecodable byte,
      a directory, a permission error), which nothing catches. */
  datatype Opened = Parsed(page: Page) | NotFound | NotJson | ReadFailed

  /** One directory entry: its name and what reading it gave. */
  datatype FileEntry = FileEntry(name: string, read: Opened)

  /** A langchain `Document`: the text and the metadata dict it carries. */
  datatype Chunk = Chunk(content: string, meta: Meta)

  datatype ReadError = MissingText(name: string) | ReadFailure(name: string) | MissingMeta

  predicate EndsWith(s: string, suffix: string)
  {
    |suffix| <= |s| && s[|s| - |suffix|..] == suffix
  }

  /** The entry is a `.json` file that was read and parsed. */
  predicate Loaded(f: FileEntry)
  {
    EndsWith(f.name, ".json") && f.read.Parsed?
  }

  /** Reading the entry raises out of the loop: a `.json` file whose read failed other than by
      being absent or malformed, or whose page has no `text` (`KeyError`). */
  predicate Raises(f: FileEntry)
  {
    EndsWith(f.name, ".json") && (f.read.ReadFailed? || (f.read.Parsed? && f.read.page.text.None?))
  }

  /** The pages the loop keeps, in listing order: loaded pages whose text is present and not `""`. */
  function LoadedNonEmpty(files: seq<FileEntry>): (r: seq<Page>)
    ensures |r| <= |files|
    ensures forall p | p in r :: p.text.Some? && p.text.value != ""
    ensures forall p | p in r :: exists i | 0 <= i < |files| :: Loaded(files[i]) && files[i].read.page == p
    ensures forall i | 0 <= i < |files| && Loaded(files[i]) && files[i].read.page.text.Some? &&
      files[i].read.page.text.value != "" :: files[i].read.page in r
  {
    if |files| == 0 then []
    else
      assert forall i | 1 <= i < |files| :: files[i] == files[1..][i - 1];
      var f := files[0];
      (if Loaded(f) && f.read.page.text.Some? && f.read.page.text.value != "" then [f.read.page] else [])
        + LoadedNonEmpty(files[1..])
  }

  /** The kept pages of two listings one after the other are those of the first, then those of the
      second: the filter keeps listing order. */
  lemma {:induction false} LoadedNonEmptyAppend(a: seq<FileEntry>, b: seq<FileEntry>)
    ensures LoadedNonEmpty(a + b) == LoadedNonEmpty(a) + LoadedNonEmpty(b)
    decreases |a|
  {
    if |a| > 0 {
      assert (a + b)[1..] == a[1..] + b;
      LoadedNonEmptyAppend(a[1..], b);
    } else {
      assert a + b == b;
    }
  }

  /** `read_json_files_from_folder` over the directory listing, in listing order. Missing and
      malformed files are reported and skipped; any other read failure, and a loaded page without
      `text`, raise and end the whole read; a page whose text is `""` is skipped. */
  function ReadJsonFiles(files: seq<FileEntry>): (r: Result<seq<Page>, ReadError>)
    ensures r.Failure? <==> exists i | 0 <= i < |files| :: Raises(files[i])
    ensures r.Success? ==> r.value == LoadedNonEmpty(files)
  {
    if |files| == 0 then Success([])
    else
      var f := files[0];
      var rest := ReadJsonFiles(files[1..]);
      assert forall i | 1 <= i < |files| :: files[i] == files[1..][i - 1];
      if !EndsWith(f.name, ".json") then rest
      else match f.read
        case NotFound => rest
        case NotJson => rest
        case ReadFailed => Failure(ReadFailure(f.name))
        case Parsed(page) =>
          if page.text.None? then Failure(MissingText(f.name))
          else if rest.Failure? then rest
          else if page.text.value == "" then rest
          else Success([page] + rest.value)
  }

  /** The `docs` list: each page's text with its `meta`; a page without `meta` raises `KeyError`. */
  function ToChunks(pages: seq<Page>): (r: Result<seq<Chunk>, ReadError>)
    requires forall p | p in pages :: p.text.Some?
    ensures r.Failure? <==> exists i | 0 <= i < |pages| :: pages[i].meta.None?
    ensures r.Success? ==> |r.value| == |pages|
    ensures r.Success? ==> forall i | 0 <= i < |pages| ::
      r.value[i] == Chunk(pages[i].text.value, pages[i].meta.value)
  {
    if |pages| == 0 then Success([])
    else
      var rest := ToChunks(pages[1..]);
      assert forall i | 1 <= i < |pages| :: pages[i] == pages[1..][i - 1];
      if pages[0].meta.None? then Failure(MissingMeta)
      else if rest.Failure? then rest
      else Success([Chunk(pages[0].text.value, pages[0].meta.value)] + rest.value)
  }

  // ---------------------------------------------------------------------------------------
  // Chunk emission in `split_documents`. The splitter is a parameter.

  /** The chunks of one document: each splitter chunk, preprocessed, with the document's metadata. */
  function EmitDoc(split: string -> seq<string>, d: Chunk): (r: seq<Chunk>)
    ensures |r| == |split(d.content)|
    ensures forall j | 0 <= j < |r| :: r[j] == Chunk(PreprocessText(split(d.content)[j]), d.meta)
  {
    var pieces := split(d.content);
    seq(|pieces|, j requires 0 <= j < |pieces| => Chunk(PreprocessText(pieces[j]), d.meta))
  }

  /** The emission loop: documents in order, each document's chunks in splitter order. */
  function Emit(split: string -> seq<string>, docs: seq<Chunk>): seq<Chunk>
  {
    if |docs| == 0 then [] else EmitDoc(split, docs[0]) + Emit(split, docs[1..])
  }

  /** Emission is done document by document, so it distributes over concatenation. */
  lemma {:induction false} EmitAppend(split: string -> seq<string>, a: seq<Chunk>, b: seq<Chunk>)
    ensures Emit(split, a + b) == Emit(split, a) + Emit(split, b)
  {
    if |a| == 0 {
      assert a + b == b;
    } else {
      assert (a + b)[1..] == a[1..] + b;
      EmitAppend(split, a[1..], b);
    }
  }

  /** Every emitted chunk is a preprocessed splitter chunk of some document, carrying that
      document's metadata: so it has no NUL and no marker. */
  lemma {:induction false} EmittedChunksFromDocs(split: string -> seq<string>, docs: seq<Chunk>)
    ensures forall c | c in Emit(split, docs) ::
      exists i, j | 0 <= i < |docs| && 0 <= j < |split(docs[i].content)| ::
        c == Chunk(PreprocessText(split(docs[i].content)[j]), docs[i].meta)
    ensures forall c | c in Emit(split, docs) :: '\0' !in c.content
  {
    if |docs| > 0 {
      EmittedChunksFromDocs(split, docs[1..]);
      forall c | c in Emit(split, docs)
        ensures exists i, j | 0 <= i < |docs| && 0 <= j < |split(docs[i].content)| ::
          c == Chunk(PreprocessText(split(docs[i].content)[j]), docs[i].meta)
      {
        if c in EmitDoc(split, docs[0]) {
          var j :| 0 <= j < |EmitDoc(split, docs[0])| && EmitDoc(split, docs[0])[j] == c;
          assert c == Chunk(PreprocessText(split(docs[0].content)[j]), docs[0].meta);
        } else {
          assert c in Emit(split, docs[1..]);
          var i, j :| 0 <= i < |docs[1..]| && 0 <= j < |split(docs[1..][i].content)| &&
            c == Chunk(PreprocessText(split(docs[1..][i].content)[j]), docs[1..][i].meta);
          assert docs[1..][i] == docs[i + 1];
        }
      }
    }
  }

  // ---------------------------------------------------------------------------------------
  // First-occurrence dedup at the end of `split_documents`.

  function Contents(cs: seq<Chunk>): set<string>
  {
    set c | c in cs :: c.content
  }

  /** Reference definition: scanning left to right, keep a chunk when its text is not in `seen`
      and add the text to `seen`. */
  function DedupFrom(seen: set<string>, cs: seq<Chunk>): (r: seq<Chunk>)
    ensures forall c | c in r :: c.content !in seen && c in cs
    ensures |r| <= |cs|
    decreases |cs|
  {
    if |cs| == 0 then []
    else if cs[0].content in seen then DedupFrom(seen, cs[1..])
    else [cs[0]] + DedupFrom(seen + {cs[0].content}, cs[1..])
  }

  /** Every text not already seen survives. */
  lemma {:induction false} DedupContents(seen: set<string>, cs: seq<Chunk>)
    ensures Contents(DedupFrom(seen, cs)) == Contents(cs) - seen
    decreases |cs|
  {
    if |cs| > 0 {
      assert Contents(cs) == {cs[0].content} + Contents(cs[1..]) by {
        assert forall c | c in cs :: c == cs[0] || c in cs[1..];
      }
      if cs[0].content in seen {
        DedupContents(seen, cs[1..]);
      } else {
        DedupContents(seen + {cs[0].content}, cs[1..]);
        var rest := DedupFrom(seen + {cs[0].content}, cs[1..]);
        assert Contents([cs[0]] + rest) == {cs[0].content} + Contents(rest) by {
          assert forall c | c in [cs[0]] + rest :: c == cs[0] || c in rest;
        }
      }
    }
  }

  function Dedup(cs: seq<Chunk>): seq<Chunk>
  {
    DedupFrom({}, cs)
  }

  predicate DistinctContents(cs: seq<Chunk>)
  {
    forall i, j | 0 <= i < j < |cs| :: cs[i].content != cs[j].content
  }

  /** `a` is `b` with some elements left out. */
  predicate Subsequence(a: seq<Chunk>, b: seq<Chunk>)
    decreases |b|
  {
    if |a| == 0 then true
    else if |b| == 0 then false
    else (a[0] == b[0] && Subsequence(a[1..], b[1..])) || Subsequence(a, b[1..])
  }

  /** The kept texts are pairwise distinct. */
  lemma {:induction false} DedupDistinct(seen: set<string>, cs: seq<Chunk>)
    ensures DistinctContents(DedupFrom(seen, cs))
    decreases |cs|
  {
    if |cs| > 0 {
      if cs[0].content in seen {
        DedupDistinct(seen, cs[1..]);
      } else {
        var rest := DedupFrom(seen + {cs[0].content}, cs[1..]);
        DedupDistinct(seen + {cs[0].content}, cs[1..]);
        DistinctCons(cs[0], rest);
      }
    }
  }

  /** A chunk put in front of a distinct list whose texts all differ from its own. */
  lemma DistinctCons(x: Chunk, rest: seq<Chunk>)
    requires DistinctContents(rest) && forall c | c in rest :: c.content != x.content
    ensures DistinctContents([x] + rest)
  {
    var r := [x] + rest;
    forall i, j | 0 <= i < j < |r| ensures r[i].content != r[j].content {
      assert r[j] == rest[j - 1] && rest[j - 1] in rest;
      if i > 0 {
        assert r[i] == rest[i - 1];
      }
    }
  }

  /** The kept chunks appear in the input in the same order. */
  lemma {:induction false} DedupSubsequence(seen: set<string>, cs: seq<Chunk>)
    ensures Subsequence(DedupFrom(seen, cs), cs)
    decreases |cs|
  {
    if |cs| > 0 {
      if cs[0].content in seen {
        DedupSubsequence(seen, cs[1..]);
      } else {
        DedupSubsequence(seen + {cs[0].content}, cs[1..]);
        assert ([cs[0]] + DedupFrom(seen + {cs[0].content}, cs[1..]))[1..] == DedupFrom(seen + {cs[0].content}, cs[1..]);
      }
    }
  }

  /** Position of the first chunk with text `t`. */
  function FirstWith(cs: seq<Chunk>, t: string): (k: nat)
    requires t in Contents(cs)
    ensures k < |cs| && cs[k].content == t
    ensures forall j | 0 <= j < k :: cs[j].content != t
  {
    if cs[0].content == t then 0
    else
      assert t in Contents(cs[1..]) by {
        var c :| c in cs && c.content == t;
        assert c in cs[1..];
      }
      1 + FirstWith(cs[1..], t)
  }

  /** For each text, the chunk kept is the first one in the input that has it. */
  lemma {:induction false} DedupKeepsFirst(seen: set<string>, cs: seq<Chunk>)
    ensures forall c | c in DedupFrom(seen, cs) :: c.content in Contents(cs) && c == cs[FirstWith(cs, c.content)]
    decreases |cs|
  {
    if |cs| > 0 {
      var seen' := if cs[0].content in seen then seen else seen + {cs[0].content};
      DedupKeepsFirst(seen', cs[1..]);
      forall c | c in DedupFrom(seen, cs) ensures c.content in Contents(cs) && c == cs[FirstWith(cs, c.content)] {
        if c in DedupFrom(seen', cs[1..]) {
          assert c.content != cs[0].content;
          assert c.content in Contents(cs[1..]);
          assert c.content in Contents(cs) by { assert cs[1 + FirstWith(cs[1..], c.content)] in cs; }
          assert FirstWith(cs, c.content) == 1 + FirstWith(cs[1..], c.content);
        } else {
          assert c == cs[0];
        }
      }
    }
  }

  /** A list whose texts are distinct and unseen is left as it is. */
  lemma {:induction false} DistinctIsFixpoint(seen: set<string>, cs: seq<Chunk>)
    requires DistinctContents(cs)
    requires forall c | c in cs :: c.content !in seen
    ensures DedupFrom(seen, cs) == cs
    decreases |cs|
  {
    if |cs| > 0 {
      var t := cs[1..];
      forall i, j | 0 <= i < j < |t| ensures t[i].content != t[j].content {
        assert t[i] == cs[i + 1] && t[j] == cs[j + 1];
      }
      forall c | c in t ensures c.content !in seen + {cs[0].content} {
        var j :| 0 <= j < |t| && t[j] == c;
        assert cs[j + 1] == c && cs[j + 1] in cs;
        assert cs[0].content != cs[j + 1].content;
      }
      DistinctIsFixpoint(seen + {cs[0].content}, t);
      assert cs == [cs[0]] + t;
    }
  }

  /** The dedup is idempotent. */
  lemma DedupIdempotent(cs: seq<Chunk>)
    ensures Dedup(Dedup(cs)) == Dedup(cs)
  {
    DedupDistinct({}, cs);
    DistinctIsFixpoint({}, Dedup(cs));
  }

  lemma ContentsSnoc(cs: seq<Chunk>, c: Chunk)
    ensures Contents(cs + [c]) == Contents(cs) + {c.content}
  {
    assert forall x | x in cs + [c] :: x in cs || x == c;
  }

  /** One step of the reference scan. */
  lemma DedupFromStep(seen: set<string>, cs: seq<Chunk>)
    requires |cs| > 0
    ensures cs[0].content in seen ==> DedupFrom(seen, cs) == DedupFrom(seen, cs[1..])
    ensures cs[0].content !in seen ==> DedupFrom(seen, cs) == [cs[0]] + DedupFrom(seen + {cs[0].content}, cs[1..])
  {
  }

  /** The loop's invariant survives reading one more chunk. */
  lemma DedupAdvance(out: seq<Chunk>, unique: set<string>, rest: seq<Chunk>)
    requires |rest| > 0
    ensures rest[0].content in unique ==> out + DedupFrom(unique, rest) == out + DedupFrom(unique, rest[1..])
    ensures rest[0].content !in unique ==>
      out + DedupFrom(unique, rest) == (out + [rest[0]]) + DedupFrom(unique + {rest[0].content}, rest[1..])
  {
    DedupFromStep(unique, rest);
  }

  /** The dedup loop, with the `unique_texts` dict as a set of texts. */
  method DedupLoop(cs: seq<Chunk>) returns (out: seq<Chunk>)
    ensures out == Dedup(cs)
    ensures DistinctContents(out)
    ensures Contents(out) == Contents(cs)
  {
    var unique: set<string> := {};
    out := [];
    var i := 0;
    assert cs[0..] == cs;
    while i < |cs|
      invariant 0 <= i <= |cs|
      invariant unique == Contents(out)
      invariant out + DedupFrom(unique, cs[i..]) == Dedup(cs)
    {
      DedupAdvance(out, unique, cs[i..]);
      assert cs[i..][1..] == cs[i + 1..] && cs[i..][0] == cs[i];
      if cs[i].content !in unique {
        ContentsSnoc(out, cs[i]);
        unique := unique + {cs[i].content};
        out := out + [cs[i]];
      }
      i := i + 1;
    }
    assert cs[i..] == [] && out + [] == out;
    DedupDistinct({}, cs);
    DedupContents({}, cs);
  }

  /** `split_documents`: emission followed by dedup. */
  method SplitDocuments(split: string -> seq<string>, docs: seq<Chunk>) returns (r: seq<Chunk>)
    ensures r == Dedup(Emit(split, docs))
    ensures DistinctContents(r)
    ensures Subsequence(r, Emit(split, docs))
    ensures Contents(r) == Contents(Emit(split, docs))
    ensures forall c | c in r :: '\0' !in c.content
  {
    var emitted := Emit(split, docs);
    r := DedupLoop(emitted);
    DedupSubsequence({}, emitted);
    EmittedChunksFromDocs(split, docs);
  }
}

=== FILE: strings.dfy ===
/** The handful of Python `str` operations the pipeline relies on, over `seq<char>`. */
module Strings {

  /** Python's `sep.join(parts)`. */
  function Join(parts: seq<string>, sep: string): string
  {
    if |parts| == 0 then ""
    else if |parts| == 1 then parts[0]
    else parts[0] + sep + Join(parts[1..], sep)
  }

  /** Joining two non-empty lists puts exactly one separator between them. */
  lemma {:induction false} JoinAppend(a: seq<string>, b: seq<string>, sep: string)
    requires |a| > 0 && |b| > 0
    ensures Join(a + b, sep) == Join(a, sep) + sep + Join(b, sep)
  {
    if |a| == 1 {
      assert a + b == [a[0]] + b;
      assert (a + b)[1..] == b;
    } else {
      assert (a + b)[1..] == a[1..] + b;
      JoinAppend(a[1..], b, sep);
    }
  }

  /** Appending one more part adds a separator and the part. */
  lemma JoinSnoc(a: seq<string>, x: string, sep: string)
    requires |a| > 0
    ensures Join(a + [x], sep) == Join(a, sep) + sep + x
  {
    JoinAppend(a, [x], sep);
  }

  /** Python's `str.split(c)` for a one-character separator: keeps empty pieces. */
  function Split(s: string, c: char): (r: seq<string>)
    ensures |r| >= 1
  {
    if |s| == 0 then [""]
    else if s[0] == c then [""] + Split(s[1..], c)
    else
      var rest := Split(s[1..], c);
      [[s[0]] + rest[0]] + rest[1..]
  }

  /** No piece of a split contains the separator. */
  lemma {:induction false} SplitPiecesAvoidSeparator(s: string, c: char)
    ensures forall i :: 0 <= i < |Split(s, c)| ==> c !in Split(s, c)[i]
  {
    if |s| == 0 {
    } else if s[0] == c {
      SplitPiecesAvoidSeparator(s[1..], c);
    } else {
      SplitPiecesAvoidSeparator(s[1..], c);
      var rest := Split(s[1..], c);
      assert c !in rest[0];
    }
  }

  /** Splitting and re-joining with the same separator gives the input back. */
  lemma {:induction false} SplitJoinRoundTrip(s: string, c: char)
    ensures Join(Split(s, c), [c]) == s
  {
    if |s| > 0 {
      var rest := Split(s[1..], c);
      SplitJoinRoundTrip(s[1..], c);
      if s[0] == c {
        JoinAppend([""], rest, [c]);
        assert Join([""], [c]) == "";
      } else {
        JoinPrependChar(s[0], rest, [c]);
      }
      assert [s[0]] + s[1..] == s;
    }
  }

  /** A character put in front of the first part is put in front of the joined text. */
  lemma JoinPrependChar(ch: char, parts: seq<string>, sep: string)
    requires |parts| > 0
    ensures Join([[ch] + parts[0]] + parts[1..], sep) == [ch] + Join(parts, sep)
  {
    var q := [[ch] + parts[0]] + parts[1..];
    assert q[0] == [ch] + parts[0] && q[1..] == parts[1..];
  }

  /** The first piece of a split is the text before the first separator. */
  lemma {:induction false} SplitHead(s: string, c: char)
    ensures Split(s, c)[0] <= s
    ensures c !in Split(s, c)[0]
    ensures |Split(s, c)[0]| < |s| ==> s[|Split(s, c)[0]|] == c
    ensures c !in s ==> Split(s, c)[0] == s
  {
    if |s| == 0 {
    } else if s[0] == c {
    } else {
      SplitHead(s[1..], c);
    }
  }

  /** Text free of the separator splits into itself alone. */
  lemma {:induction false} SplitNoSeparator(s: string, c: char)
    requires c !in s
    ensures Split(s, c) == [s]
  {
    if |s| > 0 {
      SplitNoSeparator(s[1..], c);
      assert [s[0]] + s[1..] == s;
    }
  }

  /** Splitting at the first separator: the text before it is the first piece. */
  lemma {:induction false} SplitFirst(a: string, c: char, b: string)
    requires c !in a
    ensures Split(a + [c] + b, c) == [a] + Split(b, c)
  {
    var s := a + [c] + b;
    if |a| > 0 {
      assert s[0] == a[0] && s[1..] == a[1..] + [c] + b;
      SplitFirst(a[1..], c, b);
      assert [a[0]] + a[1..] == a;
    } else {
      assert s[1..] == b;
    }
  }

  /** `p` occurs in `s` starting at position `i`. */
  predicate OccursAt(s: string, p: string, i: int)
  {
    0 <= i && i + |p| <= |s| && s[i..i + |p|] == p
  }

  /** `p` occurs somewhere in `s`. */
  predicate Occurs(s: string, p: string)
  {
    exists i :: 0 <= i <= |s| && OccursAt(s, p, i)
  }

  /** An occurrence at position 0 is a prefix. */
  lemma OccursAtStart(s: string, p: string)
    ensures OccursAt(s, p, 0) <==> p <= s
  {
  }

  /** The occurrences in the text after its first character are those past position 0, shifted. */
  lemma OccursAtTail(s: string, p: string, i: int)
    requires |s| > 0
    ensures OccursAt(s[1..], p, i) <==> 0 <= i && OccursAt(s, p, i + 1)
  {
    if 0 <= i && i + |p| <= |s| - 1 {
      assert s[1..][i..i + |p|] == s[i + 1..i + 1 + |p|];
    }
  }

  /** Python's `s.replace(pat, rep)`: scan left to right, replace each non-overlapping occurrence.
      Every caller guards against an empty `pat`. */
  function ReplaceAll(s: string, pat: string, rep: string): string
    requires |pat| > 0
    decreases |s|
  {
    if |s| == 0 then ""
    else if pat <= s then rep + ReplaceAll(s[|pat|..], pat, rep)
    else [s[0]] + ReplaceAll(s[1..], pat, rep)
  }

  /** Text without an occurrence of `pat` comes back unchanged. */
  lemma {:induction false} ReplaceAllAbsent(s: string, pat: string, rep: string)
    requires |pat| > 0
    requires !Occurs(s, pat)
    ensures ReplaceAll(s, pat, rep) == s
  {
    if |s| == 0 {
    } else {
      OccursAtStart(s, pat);
      forall i ensures !OccursAt(s[1..], pat, i) {
        OccursAtTail(s, pat, i);
      }
      ReplaceAllAbsent(s[1..], pat, rep);
    }
  }

  /** The first occurrence of `pat` is replaced and the scan resumes right after it. */
  lemma {:induction false} ReplaceAllFirst(pre: string, pat: string, rep: string, rest: string)
    requires |pat| > 0
    requires forall i :: 0 <= i < |pre| ==> !OccursAt(pre + pat + rest, pat, i)
    ensures ReplaceAll(pre + pat + rest, pat, rep) == pre + rep + ReplaceAll(rest, pat, rep)
  {
    var s := pre + pat + rest;
    if |pre| == 0 {
      assert s == pat + rest;
      assert pat <= s;
      assert s[|pat|..] == rest;
    } else {
      OccursAtStart(s, pat);
      assert s[1..] == pre[1..] + pat + rest;
      forall i | 0 <= i < |pre[1..]| ensures !OccursAt(pre[1..] + pat + rest, pat, i) {
        OccursAtTail(s, pat, i);
      }
      ReplaceAllFirst(pre[1..], pat, rep, rest);
      assert pre == [pre[0]] + pre[1..];
    }
  }

  /** Python's `str.isspace()` characters, which is also what the regular expression `\s` and
      `str.strip()` treat as whitespace on `str` values. */
  predicate IsSpace(c: char)
  {
    || ('\t' <= c <= '\r')
    || ('\U{1C}' <= c <= '\U{1F}')
    || c == ' '
    || c == '\U{85}'
    || c == '\U{A0}'
    || c == '\U{1680}'
    || ('\U{2000}' <= c <= '\U{200A}')
    || c == '\U{2028}'
    || c == '\U{2029}'
    || c == '\U{202F}'
    || c == '\U{205F}'
    || c == '\U{3000}'
  }

  /** `n` spaces. */
  function Spaces(n: nat): (r: string)
    ensures |r| == n
    ensures forall i :: 0 <= i < n ==> r[i] == ' '
  {
    if n == 0 then "" else " " + Spaces(n - 1)
  }

  /** Python's `s.ljust(width)`: pad on the right with spaces up to `width`. */
  function LJust(s: string, width: int): (r: string)
    ensures |s| <= width ==> |r| == width
    ensures |s| >= width ==> r == s
    ensures s <= r
    ensures forall i :: |s| <= i < |r| ==> r[i] == ' '
  {
    if |s| >= width then s else s + Spaces(width - |s|)
  }
}

=== FILE: table.dfy ===
/** `parse_table`: a table dict rendered as text lines, cells left-aligned to a common column
    width and separated by `" | "`, between a start and an end marker line. */
module TableRender {
  import opened Wrappers
  import opened Strings
  import opened JsonDoc

  const TableStart: string := "---Table Start---"
  const TableEnd: string := "---Table End---"
  const NoRows: string := "No rows available in table"
  const NoCellText: string := "No cell text available"

  /** `cell.get('text', 'No cell text available')`. */
  function CellText(c: Cell): string
  {
    c.text.GetOr(NoCellText)
  }

  /** The length of the text in column `c` of a row, 0 when the row is shorter. */
  function CellLen(row: seq<Cell>, c: nat): nat
  {
    if c < |row| then |CellText(row[c])| else 0
  }

  /** `max(len(row) for row in rows)`, the number of columns. */
  function MaxCols(rows: seq<seq<Cell>>): (m: nat)
    ensures forall i | 0 <= i < |rows| :: |rows[i]| <= m
    ensures |rows| > 0 ==> exists i | 0 <= i < |rows| :: |rows[i]| == m
  {
    if |rows| == 0 then 0
    else
      var rest := MaxCols(rows[1..]);
      assert forall i | 1 <= i < |rows| :: rows[i] == rows[1..][i - 1];
      if |rows[0]| >= rest then |rows[0]| else rest
  }

  /** Reference definition: the widest text in column `c` (0 when no row reaches it). */
  function ColumnMax(rows: seq<seq<Cell>>, c: nat): (w: nat)
    ensures forall i | 0 <= i < |rows| :: CellLen(rows[i], c) <= w
    ensures w == 0 || exists i | 0 <= i < |rows| :: c < |rows[i]| && |CellText(rows[i][c])| == w
  {
    if |rows| == 0 then 0
    else
      var rest := ColumnMax(rows[1..], c);
      assert forall i | 1 <= i < |rows| :: rows[i] == rows[1..][i - 1];
      if CellLen(rows[0], c) >= rest then CellLen(rows[0], c) else rest
  }

  /** The inner width loop over one row, from cell `i` on: widen a known column, or append a
      new one past the end. */
  function WidenRow(widths: seq<nat>, row: seq<Cell>, i: nat): seq<nat>
    decreases |row| - i
  {
    if i >= |row| then widths
    else
      var len := |CellText(row[i])|;
      var w := if i < |widths| then widths[i := if widths[i] >= len then widths[i] else len] else widths + [len];
      WidenRow(w, row, i + 1)
  }

  /** The outer width loop, row by row. */
  function Widen(widths: seq<nat>, rows: seq<seq<Cell>>): seq<nat>
    decreases |rows|
  {
    if |rows| == 0 then widths else Widen(WidenRow(widths, rows[0], 0), rows[1..])
  }

  /** `[0] * max_cols` widened by every row: the `col_widths` the renderer reads. */
  function ColumnWidths(rows: seq<seq<Cell>>): seq<nat>
  {
    Widen(seq(MaxCols(rows), _ => 0), rows)
  }

  function Max(a: nat, b: nat): nat
  {
    if a >= b then a else b
  }

  lemma {:induction false} WidenRowSpec(widths: seq<nat>, row: seq<Cell>, i: nat)
    requires |row| <= |widths|
    ensures |WidenRow(widths, row, i)| == |widths|
    ensures forall j | 0 <= j < |widths| ::
      WidenRow(widths, row, i)[j] == if i <= j then Max(widths[j], CellLen(row, j)) else widths[j]
    decreases |row| - i
  {
    if i < |row| {
      var len := |CellText(row[i])|;
      var w := widths[i := Max(widths[i], len)];
      assert WidenRow(widths, row, i) == WidenRow(w, row, i + 1);
      WidenRowSpec(w, row, i + 1);
    }
  }

  lemma {:induction false} WidenSpec(widths: seq<nat>, rows: seq<seq<Cell>>)
    requires forall i | 0 <= i < |rows| :: |rows[i]| <= |widths|
    ensures |Widen(widths, rows)| == |widths|
    ensures forall j | 0 <= j < |widths| :: Widen(widths, rows)[j] == Max(widths[j], ColumnMax(rows, j))
    decreases |rows|
  {
    if |rows| > 0 {
      var w := WidenRow(widths, rows[0], 0);
      WidenRowSpec(widths, rows[0], 0);
      assert forall i | 0 <= i < |rows[1..]| :: rows[1..][i] == rows[i + 1];
      WidenSpec(w, rows[1..]);
    }
  }

  /** The loop computes, for every column, the reference column maximum. */
  lemma ColumnWidthsAreColumnMaxima(rows: seq<seq<Cell>>)
    ensures |ColumnWidths(rows)| == MaxCols(rows)
    ensures forall j | 0 <= j < MaxCols(rows) :: ColumnWidths(rows)[j] == ColumnMax(rows, j)
  {
    WidenSpec(seq(MaxCols(rows), _ => 0), rows);
  }

  /** One row's cells, each left-justified to its column's width (0 past the known columns). */
  function AlignCells(row: seq<Cell>, widths: seq<nat>): (r: seq<string>)
    ensures |r| == |row|
  {
    seq(|row|, j requires 0 <= j < |row| => LJust(CellText(row[j]), if j < |widths| then widths[j] else 0))
  }

  /** Reference rendering of a row: each cell padded to its column maximum. */
  function ReferenceRow(row: seq<Cell>, rows: seq<seq<Cell>>): seq<string>
  {
    seq(|row|, j requires 0 <= j < |row| => LJust(CellText(row[j]), ColumnMax(rows, j)))
  }

  /** The rendering. */
  function ParseTable(item: Item): (r: seq<string>)
    ensures item.rows.None? || item.rows.value == [] ==> r == [TableStart, NoRows, TableEnd]
    ensures item.rows.Some? && item.rows.value != [] ==>
      && |r| == |item.rows.value| + 2
      && r[0] == TableStart && r[|r| - 1] == TableEnd
      && forall i | 0 <= i < |item.rows.value| ::
           r[i + 1] == Join(ReferenceRow(item.rows.value[i], item.rows.value), " | ")
  {
    var rows := item.rows.GetOr([]);
    if rows == [] then [TableStart, NoRows, TableEnd]
    else
      var lines := RenderRows(rows, ColumnWidths(rows));
      AlignedRowsAreReference(rows);
      Framed(lines);
      [TableStart] + lines + [TableEnd]
  }

  /** The row lines: each row's aligned cells joined by `" | "`. */
  function RenderRows(rows: seq<seq<Cell>>, widths: seq<nat>): (r: seq<string>)
    ensures |r| == |rows|
    ensures forall i | 0 <= i < |rows| :: r[i] == Join(AlignCells(rows[i], widths), " | ")
  {
    seq(|rows|, i requires 0 <= i < |rows| => Join(AlignCells(rows[i], widths), " | "))
  }

  lemma Framed(lines: seq<string>)
    ensures |[TableStart] + lines + [TableEnd]| == |lines| + 2
    ensures forall i | 0 <= i < |lines| :: ([TableStart] + lines + [TableEnd])[i + 1] == lines[i]
  {
  }

  /** Aligning with the loop's widths pads every row as the reference rendering does. */
  lemma AlignedRowsAreReference(rows: seq<seq<Cell>>)
    ensures forall i | 0 <= i < |rows| :: AlignCells(rows[i], ColumnWidths(rows)) == ReferenceRow(rows[i], rows)
  {
    forall i | 0 <= i < |rows| {
      AlignedRowIsReference(rows, i);
    }
  }

  lemma AlignedRowIsReference(rows: seq<seq<Cell>>, i: nat)
    requires i < |rows|
    ensures AlignCells(rows[i], ColumnWidths(rows)) == ReferenceRow(rows[i], rows)
  {
    ColumnWidthsAreColumnMaxima(rows);
    var widths := ColumnWidths(rows);
    assert |rows[i]| <= MaxCols(rows);
    forall j | 0 <= j < |rows[i]| ensures AlignCells(rows[i], widths)[j] == ReferenceRow(rows[i], rows)[j] {
      assert widths[j] == ColumnMax(rows, j);
    }
  }

  /** Every rendered cell of a row is exactly as wide as its column's widest text: the text
      itself followed by spaces. */
  lemma ReferenceCellsAligned(rows: seq<seq<Cell>>, i: nat, j: nat)
    requires i < |rows| && j < |rows[i]|
    ensures |ReferenceRow(rows[i], rows)[j]| == ColumnMax(rows, j)
    ensures CellText(rows[i][j]) <= ReferenceRow(rows[i], rows)[j]
    ensures forall k | |CellText(rows[i][j])| <= k < ColumnMax(rows, j) :: ReferenceRow(rows[i], rows)[j][k] == ' '
  {
    assert CellLen(rows[i], j) <= ColumnMax(rows, j);
  }
}

=== FILE: update.dfy ===
/** `get_df`: the chunk list becomes a table with one row per chunk. Missing metadata fields get
    defaults, a citation string replaces the `Meta` column, and `Full_Content` prefixes the chunk
    with its page header. The raw metadata list and the `Full_Content` list are saved side by side. */
module Update {
  import opened SplitDocs

  /** `m.get(key, default)`. */
  function Get(m: Meta, key: string, default: string): (r: string)
    ensures key in m ==> r == m[key]
    ensures key !in m ==> r == default
  {
    if key in m then m[key] else default
  }

  /** One row of the table, once `get_df` has rewritten `Meta` and added `Full_Content`. */
  datatype Row = Row(
    language: string,
    date: string,
    url: string,
    section: string,
    header: string,
    content: string,
    meta: string,          // the `Meta` column after it is overwritten with the citation
    fullContent: string)   // `Full_Content`

  /** The citation string `get_df` writes over the `Meta` column. */
  function Citation(date: string, url: string, section: string, header: string): string
  {
    " Parse date: " + date + " Url: " + url + " Section: " + section + " Header " + header
  }

  /** The row built from one chunk. */
  function MakeRow(d: Chunk): (r: Row)
    ensures r.language == Get(d.meta, "language", "ru")
    ensures r.date == Get(d.meta, "parse_date", "date")
    ensures r.url == Get(d.meta, "current_url", "url")
    ensures r.section == Get(d.meta, "doc_section", "doc")
    ensures r.header == Get(d.meta, "h1_text", "head")
    ensures r.content == d.content
    ensures r.meta == Citation(r.date, r.url, r.section, r.header)
    ensures r.fullContent == r.header + " " + d.content
  {
    var header := Get(d.meta, "h1_text", "head");
    var date := Get(d.meta, "parse_date", "date");
    var url := Get(d.meta, "current_url", "url");
    var section := Get(d.meta, "doc_section", "doc");
    Row(Get(d.meta, "language", "ru"), date, url, section, header, d.content,
        Citation(date, url, section, header), header + " " + d.content)
  }

  /** What `get_df` returns and the two lists it saves. */
  datatype Frame = Frame(rows: seq<Row>, savedMeta: seq<Meta>, savedContent: seq<string>)

  function GetDf(docs: seq<Chunk>): (r: Frame)
    ensures |r.rows| == |docs| && |r.savedMeta| == |docs| && |r.savedContent| == |docs|
    ensures forall i | 0 <= i < |docs| :: r.rows[i] == MakeRow(docs[i])
    ensures forall i | 0 <= i < |docs| :: r.savedMeta[i] == docs[i].meta
    ensures forall i | 0 <= i < |docs| :: r.savedContent[i] == r.rows[i].fullContent
  {
    var rows := seq(|docs|, i requires 0 <= i < |docs| => MakeRow(docs[i]));
    Frame(rows,
          seq(|docs|, i requires 0 <= i < |docs| => docs[i].meta),
          seq(|docs|, i requires 0 <= i < |docs| => rows[i].fullContent))
  }

  /** The `Full_Content` column, in row order. */
  function FullContents(rows: seq<Row>): (r: seq<string>)
    ensures |r| == |rows|
    ensures forall i | 0 <= i < |rows| :: r[i] == rows[i].fullContent
  {
    seq(|rows|, i requires 0 <= i < |rows| => rows[i].fullContent)
  }

  /** The two saved lists stay aligned: the i-th saved text is the i-th chunk's text prefixed with
      the header read from the i-th saved metadata, and the chunk's text can be cut back out. */
  lemma SavedListsAligned(docs: seq<Chunk>, i: nat)
    requires i < |docs|
    ensures
      var f := GetDf(docs);
      var header := Get(f.savedMeta[i], "h1_text", "head");
      && f.savedContent[i] == header + " " + docs[i].content
      && f.savedContent[i][..|header|] == header
      && f.savedContent[i][|header| + 1..] == docs[i].content
  {
    var f := GetDf(docs);
    var header := Get(docs[i].meta, "h1_text", "head");
    assert f.savedContent[i] == header + " " + docs[i].content;
  }

  /** The citation begins with the parse date and ends with the header, with the fixed labels
      between the fields. */
  lemma CitationShape(r: Row, d: Chunk)
    requires r == MakeRow(d)
    ensures r.meta[..13] == " Parse date: "
    ensures r.meta[13..13 + |r.date|] == r.date
    ensures |r.meta| == 13 + |r.date| + 6 + |r.url| + 10 + |r.section| + 8 + |r.header|
    ensures r.meta[|r.meta| - |r.header|..] == r.header
  {
  }
}

=== FILE: wrappers.dfy ===
/** Failure-compatible result types shared by the whole model. */
module Wrappers {

  /** A value that may be absent: Python's `None` versus a present value. */
  datatype Option<+T> = None | Some(value: T) {

    /** Python's `d.get(key, default)` once the lookup has been made. */
    function GetOr(default: T): T {
      match this
      case Some(v) => v
      case None => default
    }
  }

  /** A computation that either produced a value or raised an exception. */
  datatype Result<+R, +E> = Success(value: R) | Failure(error: E) {

    predicate IsFailure() {
      Failure?
    }

    function PropagateFailure<U>(): Result<U, E>
      requires Failure?
    {
      Failure(error)
    }

    function Extract(): R
      requires Success?
    {
      value
    }
  }

  /** A statement that either completed or raised an exception. */
  datatype Outcome<+E> = Pass | Fail(error: E)
}
